=== FILE: README.md ===
# Talent registry model

A Dafny model of the `Talent` class of a life-simulation game
(`src/talent.js`). The class holds the talent catalog and answers four kinds
of request:

- it loads and normalises the catalog;
- it draws a hand of ten talents, weighted by grade, with an optional forced
  talent and optional bonus talents;
- it resolves replacement chains, where a held talent turns into a weighted
  pick among the talents it names;
- it answers lookups: `count`, `get`, `information`, `exclusive`,
  `allocationAddition`, `check`, `do` and `forEach`.

Hidden inputs are parameters of the model:

- every `Math.random()` value is a real in [0, 1): `rolls`, `picks` and
  `legendRoll`;
- the two `getRate` bonus tables are maps from grade to multiplier;
- `weightRandom` is an oracle `pick: nat -> nat`, and its `k`-th call takes
  candidate `pick(k) % |list|`;
- the global `window.talentVersion` is the `version` argument;
- the condition evaluator behind `check` and `do` is a predicate `holds`.

A thrown exception is an `Err` value. `NotFound(id)` stands for
`get`'s "No Talent" error, and `TypeError` for reading a property of an
undefined value.

Modules, one per part of the class:

| file | module | part |
|---|---|---|
| outcomes.dfy | `Outcomes` | `Option`, `Result` and the error kinds |
| numerals.dfy | `Numerals` | decimal numerals and `split` |
| weights.dfy | `Weights` | parsing a `replacement` list of `"id*weight"` strings |
| catalog.dfy | `Catalog` | raw and normalised entries, and the read-only queries |
| sampler.dfy | `Sampler` | rate set-up and `randomGrade` |
| draw.dfy | `Draw` | pool building and the ten-slot draw |
| bonus.dfy | `Bonus` | `addLegendTalents` and the injection of extra talents |
| replacement.dfy | `Resolver` | `getReplaceList`, the replacement chain and `replace` |
| talent.dfy | `TalentRegistry` | the class `Talent` with its state and its stateful operations |

The registry is a sequence of definitions in the catalog object's
enumeration order. The model admits only catalog keys and candidate ids that
are array indices: integer-like numerals below 2^32 - 1 (`Numerals.IsIndexKey`).
An object enumerates such keys in ascending numeric order, so a parsed
replacement section (an object keyed by id) is kept as an association list
sorted by key.

The code gives the grades base weights of 100 (grade 1), 10 (grade 2) and 1
(grade 3) per thousand, so grade 3 is the rarest.
`Sampler.BaseRateFrequencies` proves that, without a bonus, 1 of the 1000 numbers gives grade 3, 10 give grade 2, 100 give grade 1
and 889 give grade 0.

## Model

| member | source | states |
|---|---|---|
| `Numerals.CanonicalInjective` | src/talent.js:15-17 | two integer-like keys that denote the same number are the same key, so distinct keys give distinct ids (for admitted keys, `Number` is exact) |
| `Numerals.Split` | src/talent.js:24 | `split("*")` gives at least one part, and no part contains the separator |
| `Numerals.JoinSplit` | src/talent.js:24 | splitting loses nothing: joining the parts with the separator gives back the entry |
| `Numerals.HeadIsTextBeforeSeparator` | src/talent.js:24-25 | the first part is the text before the first `*`, or the whole entry when there is no `*` |
| `Weights.Lookup` | src/talent.js:134 | reading `obj[k]` gives a weight stored under `k`, and is undefined exactly when no entry has key `k` |
| `Weights.KeyOf` | src/talent.js:25 | an empty id text stands for id 0; otherwise the id is the number the text denotes |
| `Weights.WeightOf` | src/talent.js:25 | the weight is at least 1; a positive numeral gives its value; a missing, non-numeric or zero weight gives 1 |
| `Weights.ParseEntry` | src/talent.js:24-25 | every parsed entry has a weight of at least 1 |
| `Weights.Put` | src/talent.js:25 | storing an array-index key keeps the keys in ascending order, as the object enumerates them, and weights positive; every entry is the new pair or an old one |
| `Weights.PutLookup` | src/talent.js:25 | after `obj[k] = w`, key `k` reads `w` and every other key reads as before |
| `Weights.ParsedList` | src/talent.js:22-27 | a parsed section is keyed in ascending order and every weight is at least 1 |
| `Weights.ParsedListHasKey` | src/talent.js:23-25 | a parsed section holds id `k` exactly when some entry of the list names `k` |
| `Weights.ParsedListLastWins` | src/talent.js:23-25 | a key named twice reads the weight of its last entry: a later duplicate overwrites an earlier one |
| `Weights.ParseList` | src/talent.js:22-26 | the loader's loop over a list builds exactly the parsed section |
| `Catalog.ParseSection` | src/talent.js:21-27 | a section is present after parsing exactly when it was present before, and it parses to a well-formed table |
| `Catalog.Normalize` | src/talent.js:16-29 | an entry's id is the number its key denotes, its grade is kept, it keeps a `replacement` exactly when it had one, and its tables are well-formed |
| `Catalog.LoadedRegistryValid` | src/talent.js:13-31 | loading a catalog with distinct array-index keys gives a registry with unique ids and well-formed tables |
| `Catalog.Find` | src/talent.js:43 | finds a position holding the id exactly when the id is registered |
| `Catalog.Get` | src/talent.js:42-46 | `get` fails with `NotFound(id)` exactly when the id is unregistered; otherwise it returns the one definition with that id |
| `Catalog.Count` | src/talent.js:33-35 | with unique ids, `count` is the number of distinct registered ids |
| `Catalog.DistinctIdsCount` | src/talent.js:33-35 | a registry with unique ids has as many ids as entries |
| `Catalog.Information` | src/talent.js:48-51 | `information` fails exactly for an unregistered id, and otherwise returns that talent's grade, name and description |
| `Catalog.ForEach` | src/talent.js:168-171 | the visitor runs once per registered talent, in registry order |
| `Catalog.Check` | src/talent.js:37-40 | `check` fails with `NotFound` exactly for an unregistered id; otherwise its answer is the evaluator's verdict on that talent's condition |
| `Catalog.Do` | src/talent.js:121-125 | `do` fails exactly for an unregistered id; it returns null exactly when the talent has a condition that does not hold; otherwise it returns that talent's effect, grade, name and description |
| `Catalog.DoAgreesWithCheck` | src/talent.js:121-125 | `do` takes effect exactly when the talent has no condition or `check` passes it |
| `Catalog.FirstConflict` | src/talent.js:56-60 | the result is null exactly when no held id is in the list; otherwise it is the first held id, in held order, that the list names |
| `Catalog.Exclusive` | src/talent.js:53-62 | `exclusive` fails exactly for an unregistered candidate; it is null when the candidate has no `exclusive` list or no held id matches it; otherwise it is the first matching held id |
| `Catalog.ExclusiveSubset` | src/talent.js:53-62 | a candidate that conflicts with nothing in a set conflicts with nothing in any part of it |
| `Catalog.AllocationAddition` | src/talent.js:112-119 | for a single id, fails exactly when the id is unregistered and otherwise gives that talent's `status` (0 when absent); any failure names an unregistered id of the list |
| `Catalog.AllocationAdditionFlat` | src/talent.js:112-119 | `allocationAddition` on a nested list is the sum of `status` (0 when absent) over its ids from left to right, and fails at the first unregistered id |
| `Catalog.SumStatusAppend` | src/talent.js:114-116 | the sum over two lists laid end to end is the sum of their sums, and it fails if either part fails |
| `Sampler.Multiplier` | src/talent.js:66-73 | a grade that neither bonus table names keeps multiplier 1 |
| `Sampler.Rates` | src/talent.js:64-75 | a grade that neither bonus table names keeps its base weight |
| `Sampler.AddExcess` | src/talent.js:70-73 | one bonus loop adds each named grade's excess over 1 to its multiplier and leaves the other grades alone |
| `Sampler.AccumulateRates` | src/talent.js:64-75 | the rate set-up loops compute the weights `Rates` describes |
| `Sampler.NoBonusGivesBaseRates` | src/talent.js:65-75 | bonus tables that only multiply by 1 leave the base weights {1:100, 2:10, 3:1} |
| `Sampler.RandomNumber` | src/talent.js:78 | the scaled random number lies in [0, 1000) |
| `Sampler.RandomGrade` | src/talent.js:77-83 | the grade is in {0,1,2,3}; it is 3 exactly below the grade-3 weight; with non-negative weights, grades 2, 1 and 0 own the next bands in turn |
| `Sampler.BaseRateFrequencies` | src/talent.js:77-85 | with the base weights, of the numbers 0..999 one gives grade 3, ten give grade 2, a hundred give grade 1 and 889 give grade 0 |
| `Draw.PoolOf` | src/talent.js:86-96 | a pool holds only talents of its own grade other than `include`, and no more of them than the registry has |
| `Draw.IncludeSummary` | src/talent.js:88-91 | the loop stores an `include` summary exactly when `include` names a registered talent, and the stored summary carries that id |
| `Draw.IncludeSummaryIsRegistered` | src/talent.js:88-91 | a registered `include` is stored as its own summary |
| `Draw.PoolOfMembers` | src/talent.js:86-96 | every talent other than `include` is in the pool of its own grade, and a pool holds only such talents |
| `Draw.PoolOfDistinct` | src/talent.js:86-96 | with unique ids, no pool holds two talents with the same id |
| `Draw.FreshPools` | src/talent.js:86-96 | the built pools have a pool exactly for each grade with a talent other than `include`, holding that grade's talents in registry order |
| `Draw.BuildPools` | src/talent.js:86-96 | the building loop gives exactly `FreshPools`: a pool for each grade that has a talent other than `include`, each filled in registry order; it keeps the `include` summary apart |
| `Draw.FreshPoolsOk` | src/talent.js:86-96 | new pools satisfy the draw invariant, and `include` is in none of them |
| `Draw.Descend` | src/talent.js:101-102 | the walk ends at or below the sampled grade, only after grades whose pools exist and are empty, and either at a non-empty pool or at a grade with no pool (the TypeError) |
| `Draw.FallbackGrade` | src/talent.js:101-102 | the `grade--` loop ends where `Descend` does |
| `Draw.PickIndex` | src/talent.js:105 | the picked position is inside the pool and equals the floor of the scaled random value |
| `Draw.PickIndexReachable` | src/talent.js:105 | every position of a pool is picked for some random value |
| `Draw.SpliceOk` | src/talent.js:106 | splicing one talent out keeps the draw invariant, leaves no copy of its id in any pool, adds no id, and removes no other id |
| `Draw.NotStuck` | src/talent.js:101-102 | a walk down from the sampled grade that meets a non-empty pool before any missing one does not throw |
| `Draw.TakeOne` | src/talent.js:101-106 | computes `Take`: fails with the TypeError exactly when the walk down from the sampled grade reaches a grade with no pool before a non-empty one; otherwise the talent is the one at `PickIndex` in the highest non-empty pool at or below the sampled grade, and the new pools are the old ones with exactly that element spliced out |
| `Draw.AppendTaken` | src/talent.js:99-107 | appending a talent just taken out of the pools keeps the hand's ids distinct, registered and out of the pools |
| `Draw.DrawnTake` | src/talent.js:101-106 | a slot drawn from the highest non-empty pool keeps the draw invariant, including the fact that every grade it skipped was used up by earlier slots |
| `Draw.Slot` | src/talent.js:99-107 | one slot keeps the earlier slots and adds exactly one |
| `Draw.Deal` | src/talent.js:98-107 | dealing keeps the slots already drawn and fills up to one slot per roll |
| `Draw.DrawSlot` | src/talent.js:99-107 | computes `Slot`: slot 0 is the stored `include` summary when there is one; any other slot is the talent `Take` picks with that slot's two random values, from the pools the earlier slots left; it fails exactly when its walk gets stuck |
| `Draw.SlotKeepsDrawn` | src/talent.js:99-107 | a slot keeps the draw invariant: pools keep their invariant and still hold every untaken talent, ids stay distinct and out of the pools, and the new slot came from the highest pool that had a talent |
| `Draw.PlentyNotStuck` | src/talent.js:101-102 | with ten talents besides `include` in every grade, no slot of the ten gets stuck |
| `Draw.DrawHand` | src/talent.js:86-107 | computes `Deal` from `FreshPools`, slot by slot with that slot's rolls; ten slots with distinct registered ids; slot 0 is `include` when one is named; every other slot's grade is at most its sampled grade, and every grade it skipped had a pool whose talents earlier slots had all taken; no drawn talent is left in a pool and every untaken talent still is; failure is the TypeError, and it cannot happen when every grade has ten talents besides `include` |
| `Bonus.FindId` | src/talent.js:233 | `findIndex` on ids gives the first slot with the id, or none exactly when no slot has it |
| `Bonus.FirstEligible` | src/talent.js:234-238 | gives the first slot below grade 2 whose talent is not one of the extras, or none exactly when there is no such slot |
| `Bonus.InjectShape` | src/talent.js:232-242 | one extra changes at most one slot, an eligible one, and writes itself there |
| `Bonus.InjectDistinct` | src/talent.js:232-242 | an extra whose id is already in the hand leaves the hand unchanged, so a hand with distinct ids keeps them distinct |
| `Bonus.InjectPlaced` | src/talent.js:232-242 | after its step, an extra is in the hand unless no eligible slot is left |
| `Bonus.SettledStep` | src/talent.js:232-242 | an extra already in the hand, or left with no eligible slot, stays so after a later extra |
| `Bonus.InjectedSlots` | src/talent.js:230-245 | the hand keeps its length, and a slot changes only if it was eligible, and then to an extra |
| `Bonus.InjectedDistinct` | src/talent.js:230-245 | injection keeps the hand's ids distinct |
| `Bonus.InjectedPresent` | src/talent.js:230-245 | every extra injected so far is in the hand, unless no eligible slot is left |
| `Bonus.ExtraTalentsFacts` | src/talent.js:230-245 | same length; every slot keeps its talent or holds an extra; ineligible slots are untouched; ids stay distinct; every extra is in the hand unless no eligible slot is left |
| `Bonus.BuildExtraTalents` | src/talent.js:230-245 | the injection loop computes `ExtraTalents` |
| `Bonus.LegendIndex` | src/talent.js:191-195 | `parseInt((r + 1) * n) % n` lies in [0, n) and equals the floor of `r * n` |
| `Bonus.WithoutId` | src/talent.js:188-190 | the filter keeps exactly the pool's talents whose id is not 1048 |
| `Bonus.ImmortalsExtras` | src/talent.js:181-196 | the extras are the box (1048) and one talent of the legend pool whose id is not 1048; there are none exactly when every legend talent is the box |
| `Bonus.MagicExtras` | src/talent.js:200-226 | the extras are the three fixed magic talents then one talent of the legend pool; there are none exactly when the legend pool is empty |
| `Bonus.WithExtras` | src/talent.js:232-237 | an undefined legend pick makes a non-empty hand throw a TypeError; otherwise the result is the injected hand |
| `Bonus.BuildImmortalsTalents` | src/talent.js:181-198 | an undefined legend pool throws a TypeError; otherwise the result is the hand with the immortals extras injected |
| `Bonus.BuildMagicTalents` | src/talent.js:200-228 | an undefined legend pool throws a TypeError; otherwise the result is the hand with the magic extras injected |
| `Bonus.LegendHand` | src/talent.js:173-179 | any other flag leaves the hand as it is; with a variant, it fails exactly when the grade-3 pool is missing, or the hand is non-empty and the variant's legend pick is undefined; TypeError is the only failure |
| `Bonus.LegendPoolSuffices` | src/talent.js:188-196 | a legend pool of distinct ids with one talent ("magic") or two ("immortals") always yields the extras |
| `Bonus.LegendHandSucceeds` | src/talent.js:173-228 | after a ten-slot draw from grades with twelve ("immortals") or eleven ("magic") talents besides `include`, the bonus step does not fail |
| `Bonus.LegendHandMembers` | src/talent.js:173-245 | every slot after the bonus step is a registered talent or one of the variant's fixed extras |
| `Bonus.LegendHandFacts` | src/talent.js:173-179 | bonus injection keeps the hand's length and distinct ids, never touches a slot of grade 2 or more, and fills other slots only with the variant's bonus talents |
| `Bonus.AddLegendTalents` | src/talent.js:173-179 | the dispatch on the variant flag computes `LegendHand` |
| `Resolver.ZeroConflictSlipsThrough` | src/talent.js:135 | a candidate that conflicts with held id 0 passes the truthiness test as written, although it is in conflict |
| `Resolver.GradeEntry` | src/talent.js:133-137 | one visit lists at most one candidate, and a registered talent exactly when its grade has a weight in the section and it conflicts with nothing in the working set |
| `Resolver.GradeCandidates` | src/talent.js:132-138 | a grade-keyed candidate is a registered talent whose grade has a weight in the section, carries that weight, and conflicts with nothing in the working set |
| `Resolver.TalentCandidates` | src/talent.js:139-145 | fails with `NotFound` exactly when the section names an unregistered id; otherwise lists exactly the section's entries that conflict with nothing in the working set |
| `Resolver.SectionCandidates` | src/talent.js:131-146 | fails with `NotFound` exactly when the talent section names an unregistered id; otherwise a candidate is listed exactly when it conflicts with nothing in the working set and the grade section or the talent section gives it that weight; with well-formed tables every weight is at least 1 |
| `Resolver.GetReplaceList` | src/talent.js:128-147 | fails with `NotFound` for an unregistered talent, and for a registered one exactly when its talent section names an unregistered id; is null exactly when the talent has no `replacement`; otherwise a candidate is listed exactly when it conflicts with nothing in the working set and the grade section or the talent section gives it that weight; weights are at least 1 |
| `Resolver.Choose` | src/talent.js:152 | the weighted pick is a member of the candidate list |
| `Resolver.Resolve` | src/talent.js:149-154 | a chain ends exactly at a registered talent without `replacement`; that talent is the start or conflicts with nothing in the working set; a talent without `replacement` resolves to itself |
| `Resolver.Finals` | src/talent.js:158-164 | the outer loop gives one final talent per held talent, in order; each chain ends at a registered talent without `replacement`, which is the held talent itself exactly when that one has no `replacement` |
| `Resolver.ResultMap` | src/talent.js:157-163 | the result has a key exactly for each held talent whose chain ended elsewhere, and maps it to the final talent of the last such chain for that talent, as repeated assignment does |
| `Resolver.ReplaceAll` | src/talent.js:127-166 | every held talent is registered and is a key of `replace(held)` exactly when it has a `replacement` section; it maps to a different registered talent without one, whose own `exclusive` list names no held talent |
| `Resolver.ReplaceChains` | src/talent.js:159-163 | each chain's final talent, when it differs from its start, conflicts neither with a held talent nor with the final talent of any earlier chain, because the working set grows |
| `Resolver.FinalsNothing` | src/talent.js:158-164 | held talents that all lack `replacement` each end their chain where they start |
| `Resolver.NothingToReplace` | src/talent.js:156-165 | held talents that all lack `replacement` give `{}`, and so does `replace([])` |
| `TalentRegistry.Talent.constructor` | src/talent.js:9-11 | a new registry holds no talents |
| `TalentRegistry.Talent.Initial` | src/talent.js:13-31 | after loading, the registry holds one normalised definition per catalog entry, in order, with unique ids |
| `TalentRegistry.Talent.TalentRandom` | src/talent.js:64-110 | computes `RandomHand`: `Deal` from the fresh pools with the rates the bonus tables give, then the variant's bonus; ten slots with distinct ids, each a registered talent or a fixed bonus talent; slot 0 is `include` unless a variant overwrote it, which needs `include` below grade 2; without a variant each other slot is at most its sampled grade and came from the highest pool that still had a talent; TypeError is the only failure, and it cannot happen when every grade has ten talents besides `include` (eleven for "magic", twelve for "immortals") |
| `TalentRegistry.Talent.Replace` | src/talent.js:127-166 | the loop computes `replace`: a held talent is a key exactly when it has a `replacement` section, and maps to a different talent without one whose own `exclusive` list names no held talent |

## Left out

- `extractMaxTriggers` and the `max_triggers` field it sets during loading are not modelled. They belong to the condition language.
- `checkCondition` is not modelled. `Catalog.Check` and `Catalog.Do` take the evaluator as the predicate `holds`.
- `getRate` is not modelled. Its two tables are parameters of `Sampler.Rates`, and the default `times = 0, achievement = 0` is whatever the caller passes.
- `Sampler.AddExcess` ignores grades outside 1..3. The source adds NaN entries for them, which `randomGrade` never reads.
- Rate arithmetic is exact real arithmetic. Double-precision rounding is not modelled.
- Probabilities are not modelled. `Sampler.BaseRateFrequencies` counts grades over the 1000 equally likely numbers instead.
- The internals of `weightRandom` (`src/functions/util.js`) are not part of this model. `Resolver.Choose` takes `pick(k) % |list|`, so the weights do not influence the pick.
- `Resolver.Resolve` returns `NoCandidate` when it would hand `weightRandom` an empty list. The answer of `weightRandom` on an empty list is not known.
- `Resolver.Resolve` takes a `fuel` bound and returns `OutOfFuel` when it runs out. The source's chain is unbounded, so a cyclic replacement ruleset would not terminate.
- `clone` is not modelled. Datatype values cannot be aliased, so the copies in `get`, `forEach` and `replace` have nothing to protect.
- `Catalog.ForEach` visits with a total function. The `typeof callback` guard and the key argument passed to the callback are not modelled.
- `Number()` coercion is modelled only for decimal digit strings. Catalog keys and replacement candidate ids must be array indices: integer-like numerals below 2^32 - 1. Larger integer keys are not modelled: an object enumerates them after its array indices, in insertion order, and `Number` rounds them above 2^53, so two distinct keys can give the same id. A weight with any non-digit character (`" 5"`, `"1.5"`, `"1e3"`) reads as non-numeric, so it becomes 1. `grade` is taken as already numeric. `status` is an optional integer.
- DrawHand: an unregistered `include` is excluded by the precondition. The source would put the raw id into slot 0, unless the id is 0, which is falsy, so slot 0 is drawn like any other.
- `TalentRegistry.Talent.constructor` gives an empty registry. In the source, most queries before `initial` read an undefined object and throw a TypeError; `forEach`, `replace([])` and `allocationAddition([])` do not, and return nothing, `{}` and 0.
- `initial` rewrites the caller's catalog object in place. The model builds a new registry value, so the caller's copy is not changed and aliasing is not modelled.
- Replacement sections other than `grade` and `talent` are not modelled. The loader parses them too, but nothing reads them.
- `Weights.Put` takes only array-index keys (the subset type `Weights.Key`), and `Catalog.LoadedRegistryValid` only catalogs whose keys are array indices. Larger integer keys are left out for the reasons on the `Number()` line.
- `Resolver.GetReplaceList` states which candidates are listed and with which weights, but not their order. The definition keeps the source's order: grade-keyed candidates first, in registry order, then talent-keyed ones in ascending id order, which is the object's order for array-index keys.
- `Resolver.ReplaceAll` does not say that intermediate picks of a chain stay out of the working set. That property lives in the definition of `Resolver.Finals`, where only a chain's final talent is appended.
- TalentRandom requires unique ids rather than a loaded catalog. With a variant it does not restate the per-slot pool facts of `Draw.DrawHand` for the bonus-injected hand.

## Findings

| source | as written | input that shows it | evidently intended | confidence | as-written member | corrected member |
|---|---|---|---|---|---|---|
| src/talent.js:135 | `if (this.exclusive(talents, id)) return;` skips a candidate only when the held id that `exclusive` returns is truthy. The same test is at line 142. | held talents `[0]`, and a candidate 7 whose `exclusive` list is `[0]`: `exclusive` returns 0, which is falsy, so 7 is listed | a candidate in conflict with any held talent (a non-null result) is never listed | not executed; low, it matters only if a talent has id 0 | `Resolver.ZeroConflictSlipsThrough` | `Resolver.GetReplaceList` |

=== FILE: bonus.dfy ===
/**
 * Bonus injection of `talentRandom`: in the "immortals" and "magic" variants a
 * few extra talents, plus one legendary talent left in the grade-3 pool, are
 * written over low-grade slots of the drawn hand.
 */
module Bonus {
  import opened Outcomes
  import opened Catalog
  import opened Draw

  const ImmortalsId := 1048

  /** The fixed extra of the "immortals" variant. */
  const ImmortalsTalent := Summary(3, "神秘的小盒子", "100岁时才能开启", ImmortalsId)

  /** The fixed extras of the "magic" variant, in the order they are injected. */
  const MagicTalents := [
    Summary(2, "魔法棒", "不知道有什么用……", 1131),
    Summary(2, "动漫高手", "入宅的可能性翻6倍", 1005),
    Summary(1, "生而为女", "性别一定为女", 1004)
  ]

  predicate HasId(xs: seq<Summary>, id: int) {
    exists i :: 0 <= i < |xs| && xs[i].id == id
  }

  /** `findIndex(x => x.id === id)`, with -1 as None. */
  function FindId(xs: seq<Summary>, id: int): (r: Option<nat>)
    ensures r.None? <==> !HasId(xs, id)
    ensures r.Some? ==> r.value < |xs| && xs[r.value].id == id &&
                        forall j :: 0 <= j < r.value ==> xs[j].id != id
  {
    if xs == [] then None
    else if xs[0].id == id then Some(0)
    else
      var r := FindId(xs[1..], id);
      assert forall j :: 0 < j < |xs| ==> xs[j] == xs[1..][j - 1];
      if r.None? then None else Some(r.value + 1)
  }

  /** A slot an extra may overwrite: a talent below grade 2 that is not itself one of the extras. */
  predicate Eligible(s: Summary, extras: seq<Summary>) {
    s.grade < 2 && !HasId(extras, s.id)
  }

  /** The first eligible slot, if any. */
  function FirstEligible(xs: seq<Summary>, extras: seq<Summary>): (r: Option<nat>)
    ensures r.None? <==> forall i :: 0 <= i < |xs| ==> !Eligible(xs[i], extras)
    ensures r.Some? ==> r.value < |xs| && Eligible(xs[r.value], extras) &&
                        forall j :: 0 <= j < r.value ==> !Eligible(xs[j], extras)
  {
    if xs == [] then None
    else if Eligible(xs[0], extras) then Some(0)
    else
      var r := FirstEligible(xs[1..], extras);
      assert forall j :: 0 < j < |xs| ==> xs[j] == xs[1..][j - 1];
      if r.None? then None else Some(r.value + 1)
  }

  /** One extra: skipped when its id is already in the hand, else written over the first eligible slot, if any. */
  function Inject(hand: seq<Summary>, extras: seq<Summary>, e: Summary): seq<Summary> {
    if FindId(hand, e.id).Some? then hand
    else
      match FirstEligible(hand, extras)
      case None => hand
      case Some(i) => hand[i := e]
  }

  /** The hand after the first `m` extras have been injected in turn. */
  function Injected(hand: seq<Summary>, extras: seq<Summary>, m: nat): seq<Summary>
    requires m <= |extras|
  {
    if m == 0 then hand else Inject(Injected(hand, extras, m - 1), extras, extras[m - 1])
  }

  /** What `buildExtraTalents` returns. */
  function ExtraTalents(hand: seq<Summary>, extras: seq<Summary>): seq<Summary> {
    Injected(hand, extras, |extras|)
  }

  /** One injection step changes at most one slot, an eligible one, and writes the extra there. */
  lemma InjectShape(h: seq<Summary>, extras: seq<Summary>, e: Summary)
    ensures var r := Inject(h, extras, e);
      && |r| == |h|
      && (forall i :: 0 <= i < |r| ==> r[i] == h[i] || (r[i] == e && Eligible(h[i], extras)))
  {
  }

  /** An extra whose id is already in the hand is skipped, so a hand with distinct ids keeps them distinct. */
  lemma InjectDistinct(h: seq<Summary>, extras: seq<Summary>, e: Summary)
    ensures HasId(h, e.id) ==> Inject(h, extras, e) == h
    ensures DistinctIds(h) ==> DistinctIds(Inject(h, extras, e))
  {
  }

  /** After its step an extra is in the hand, unless no eligible slot is left. */
  lemma InjectPlaced(h: seq<Summary>, extras: seq<Summary>, e: Summary)
    ensures var r := Inject(h, extras, e);
      HasId(r, e.id) || FirstEligible(r, extras).None?
  {
    if FindId(h, e.id).None? && FirstEligible(h, extras).Some? {
      var k := FirstEligible(h, extras).value;
      assert h[k := e][k].id == e.id;
    }
  }

  /** An extra already in the hand, or with no eligible slot left for it, stays so after one more injection. */
  lemma SettledStep(h: seq<Summary>, extras: seq<Summary>, e: Summary, id: int)
    requires HasId(extras, id)
    requires HasId(h, id) || FirstEligible(h, extras).None?
    ensures var r := Inject(h, extras, e);
      HasId(r, id) || FirstEligible(r, extras).None?
  {
    if FindId(h, e.id).None? && FirstEligible(h, extras).Some? {
      var k := FirstEligible(h, extras).value;
      var r := h[k := e];
      var p :| 0 <= p < |h| && h[p].id == id;
      assert p != k;
      assert r[p] == h[p];
    }
  }

  /** Injection keeps the hand's length; a slot keeps its talent unless it was eligible and now holds an extra. */
  lemma {:induction false} InjectedSlots(hand: seq<Summary>, extras: seq<Summary>, m: nat)
    requires m <= |extras|
    ensures var r := Injected(hand, extras, m);
      && |r| == |hand|
      && forall i :: 0 <= i < |r| && r[i] != hand[i] ==> r[i] in extras && Eligible(hand[i], extras)
  {
    if m > 0 {
      InjectedSlots(hand, extras, m - 1);
      var h := Injected(hand, extras, m - 1);
      var e := extras[m - 1];
      InjectShape(h, extras, e);
      var r := Inject(h, extras, e);
      forall i | 0 <= i < |r| && r[i] != hand[i] ensures r[i] in extras && Eligible(hand[i], extras) {
        if r[i] != h[i] {
          assert r[i] == e && Eligible(h[i], extras);
        }
      }
    }
  }

  /** Injection keeps ids distinct. */
  lemma {:induction false} InjectedDistinct(hand: seq<Summary>, extras: seq<Summary>, m: nat)
    requires m <= |extras| && DistinctIds(hand)
    ensures DistinctIds(Injected(hand, extras, m))
  {
    if m > 0 {
      InjectedDistinct(hand, extras, m - 1);
      InjectDistinct(Injected(hand, extras, m - 1), extras, extras[m - 1]);
    }
  }

  /** Every extra injected so far is in the hand, unless no eligible slot is left. */
  lemma {:induction false} InjectedPresent(hand: seq<Summary>, extras: seq<Summary>, m: nat)
    requires m <= |extras|
    ensures var r := Injected(hand, extras, m);
      forall j :: 0 <= j < m ==> HasId(r, extras[j].id) || FirstEligible(r, extras).None?
  {
    if m > 0 {
      InjectedPresent(hand, extras, m - 1);
      var h := Injected(hand, extras, m - 1);
      var e := extras[m - 1];
      InjectPlaced(h, extras, e);
      forall j | 0 <= j < m - 1
        ensures HasId(Inject(h, extras, e), extras[j].id) || FirstEligible(Inject(h, extras, e), extras).None?
      {
        assert HasId(extras, extras[j].id);
        SettledStep(h, extras, e, extras[j].id);
      }
    }
  }

  /**
   * Injection keeps the hand's length; a slot either keeps its talent or holds
   * an extra, and a slot that was not eligible is never touched; ids stay
   * distinct; and every extra is in the hand unless no eligible slot is left.
   */
  lemma ExtraTalentsFacts(hand: seq<Summary>, extras: seq<Summary>)
    ensures var r := ExtraTalents(hand, extras);
      && |r| == |hand|
      && (forall i :: 0 <= i < |r| ==> r[i] == hand[i] || r[i] in extras)
      && (forall i :: 0 <= i < |r| && !Eligible(hand[i], extras) ==> r[i] == hand[i])
      && (DistinctIds(hand) ==> DistinctIds(r))
      && (forall j :: 0 <= j < |extras| ==> HasId(r, extras[j].id) || FirstEligible(r, extras).None?)
  {
    InjectedSlots(hand, extras, |extras|);
    InjectedPresent(hand, extras, |extras|);
    if DistinctIds(hand) {
      InjectedDistinct(hand, extras, |extras|);
    }
  }

  /** `buildExtraTalents`: inject each extra into a copy of the hand, in order. */
  method BuildExtraTalents(hand: seq<Summary>, extras: seq<Summary>) returns (r: seq<Summary>)
    ensures r == ExtraTalents(hand, extras)
  {
    r := hand;
    for m := 0 to |extras|
      invariant r == Injected(hand, extras, m)
    {
      var it := extras[m];
      if FindId(r, it.id).None? {
        var index := FirstEligible(r, extras);
        if index.Some? {
          r := r[index.value := it];
        }
      }
    }
  }

  lemma ShiftedFloor(x: real, n: nat)
    ensures (x + n as real).Floor == x.Floor + n
  {
  }

  /** `parseInt((Math.random() + 1) * n) % n`: the same position as scaling the random value alone. */
  function LegendIndex(u: real, n: nat): (i: nat)
    requires 0.0 <= u < 1.0 && n > 0
    ensures i < n && i == (u * n as real).Floor
  {
    ScaledFloor(u, n);
    assert (u + 1.0) * n as real == u * n as real + n as real;
    ShiftedFloor(u * n as real, n);
    ((u + 1.0) * n as real).Floor % n
  }

  /** The pool without the talents of one id, in order. */
  function WithoutId(xs: seq<Summary>, id: int): (r: seq<Summary>)
    ensures forall s :: s in r <==> s in xs && s.id != id
  {
    if xs == [] then []
    else (if xs[0].id != id then [xs[0]] else []) + WithoutId(xs[1..], id)
  }

  /**
   * The extras of the "immortals" variant: the mystery box, then one talent of
   * the legend pool other than the box itself. None stands for the
   * undefined pick of an empty choice.
   */
  function ImmortalsExtras(legend: seq<Summary>, u: real): (r: Option<seq<Summary>>)
    requires 0.0 <= u < 1.0
    ensures r.None? <==> forall s :: s in legend ==> s.id == ImmortalsId
    ensures r.Some? ==> |r.value| == 2 && r.value[0] == ImmortalsTalent &&
                        r.value[1] in legend && r.value[1].id != ImmortalsId
  {
    var candidates := WithoutId(legend, ImmortalsId);
    if candidates == [] then None
    else
      assert candidates[0] in legend && candidates[0].id != ImmortalsId;
      Some([ImmortalsTalent, candidates[LegendIndex(u, |candidates|)]])
  }

  /** The extras of the "magic" variant: the three fixed talents, then one talent of the legend pool. */
  function MagicExtras(legend: seq<Summary>, u: real): (r: Option<seq<Summary>>)
    requires 0.0 <= u < 1.0
    ensures r.None? <==> legend == []
    ensures r.Some? ==> |r.value| == 4 && r.value[..3] == MagicTalents && r.value[3] in legend
  {
    if legend == [] then None
    else Some(MagicTalents + [legend[LegendIndex(u, |legend|)]])
  }

  /**
   * Injecting a list of extras whose last element is undefined: with a
   * non-empty hand reading that element's `id` throws.
   */
  function WithExtras(hand: seq<Summary>, extras: Option<seq<Summary>>): (r: Result<seq<Summary>>)
    ensures r.Err? <==> extras.None? && hand != []
    ensures r.Err? ==> r.error == TypeError
    ensures r.Ok? && extras.Some? ==> r.value == ExtraTalents(hand, extras.value)
  {
    if extras.Some? then Ok(ExtraTalents(hand, extras.value))
    else if hand == [] then Ok([])
    else Err(TypeError)
  }

  /** `buildImmortalsTalents`; an undefined legend pool (None) cannot be filtered. */
  method BuildImmortalsTalents(hand: seq<Summary>, legend: Option<seq<Summary>>, u: real)
    returns (r: Result<seq<Summary>>)
    requires 0.0 <= u < 1.0
    ensures legend.None? ==> r == Err(TypeError)
    ensures legend.Some? ==> r == WithExtras(hand, ImmortalsExtras(legend.value, u))
  {
    if legend.None? {
      return Err(TypeError);
    }
    var extras := ImmortalsExtras(legend.value, u);
    if extras.None? {
      r := if hand == [] then Ok([]) else Err(TypeError);
    } else {
      var h := BuildExtraTalents(hand, extras.value);
      r := Ok(h);
    }
  }

  /** `buildMagicTalents`; an undefined legend pool (None) has no length. */
  method BuildMagicTalents(hand: seq<Summary>, legend: Option<seq<Summary>>, u: real)
    returns (r: Result<seq<Summary>>)
    requires 0.0 <= u < 1.0
    ensures legend.None? ==> r == Err(TypeError)
    ensures legend.Some? ==> r == WithExtras(hand, MagicExtras(legend.value, u))
  {
    if legend.None? {
      return Err(TypeError);
    }
    var extras := MagicExtras(legend.value, u);
    if extras.None? {
      r := if hand == [] then Ok([]) else Err(TypeError);
    } else {
      var h := BuildExtraTalents(hand, extras.value);
      r := Ok(h);
    }
  }

  const Immortals := "immortals"
  const Magic := "magic"

  /** The grade-3 pool as `talentList[3]` reads it. */
  function LegendPool(pools: Pools): Option<seq<Summary>> {
    if 3 in pools then Some(pools[3]) else None
  }

  /** The extras `addLegendTalents` injects for a variant, when the variant has any. */
  function VariantExtras(version: string, legend: seq<Summary>, u: real): (r: Option<seq<Summary>>)
    requires 0.0 <= u < 1.0 && (version == Immortals || version == Magic)
  {
    if version == Immortals then ImmortalsExtras(legend, u) else MagicExtras(legend, u)
  }

  /**
   * What `addLegendTalents` returns for a variant flag: the hand itself unless
   * the flag names one of the two variants.
   */
  function LegendHand(version: string, hand: seq<Summary>, pools: Pools, u: real): (r: Result<seq<Summary>>)
    requires 0.0 <= u < 1.0
    ensures version != Immortals && version != Magic ==> r == Ok(hand)
    ensures r.Err? ==> r.error == TypeError
    ensures (version == Immortals || version == Magic) ==>
      (r.Err? <==> 3 !in pools || (hand != [] && VariantExtras(version, pools[3], u).None?))
  {
    if version != Immortals && version != Magic then Ok(hand)
    else if 3 !in pools then Err(TypeError)
    else WithExtras(hand, VariantExtras(version, pools[3], u))
  }

  /**
   * A legend pool of distinct ids with one talent for "magic", or two for
   * "immortals" (one of which may be the mystery box), always yields extras.
   */
  lemma LegendPoolSuffices(version: string, legend: seq<Summary>, u: real)
    requires 0.0 <= u < 1.0 && (version == Immortals || version == Magic)
    requires DistinctIds(legend)
    requires |legend| >= (if version == Immortals then 2 else 1)
    ensures VariantExtras(version, legend, u).Some?
  {
    if version == Immortals {
      assert legend[0] in legend && legend[1] in legend;
      assert legend[0].id != legend[1].id;
    }
  }

  /** A talent a variant may inject: one of its fixed extras or a member of the legend pool. */
  predicate IsBonus(version: string, s: Summary, pools: Pools) {
    || (version == Immortals && s == ImmortalsTalent)
    || (version == Magic && s in MagicTalents)
    || (3 in pools && s in pools[3] && (version == Magic || s.id != ImmortalsId))
  }

  /**
   * Bonus injection keeps the hand's length and its distinct ids, never
   * touches a slot of grade 2 or more, and fills any other slot only with a
   * bonus talent of the variant.
   */
  lemma LegendHandFacts(version: string, hand: seq<Summary>, pools: Pools, u: real)
    requires 0.0 <= u < 1.0
    ensures var r := LegendHand(version, hand, pools, u);
      r.Ok? ==>
        && |r.value| == |hand|
        && (forall i :: 0 <= i < |hand| && hand[i].grade >= 2 ==> r.value[i] == hand[i])
        && (forall i :: 0 <= i < |hand| ==> r.value[i] == hand[i] || IsBonus(version, r.value[i], pools))
        && (DistinctIds(hand) ==> DistinctIds(r.value))
  {
    var r := LegendHand(version, hand, pools, u);
    if r.Ok? && (version == Immortals || version == Magic) && VariantExtras(version, pools[3], u).Some? {
      var extras := VariantExtras(version, pools[3], u).value;
      ExtraTalentsFacts(hand, extras);
      forall i | 0 <= i < |hand| && r.value[i] != hand[i] ensures IsBonus(version, r.value[i], pools) {
        assert r.value[i] in extras;
        if version == Magic {
          assert extras == MagicTalents + [extras[3]];
        }
      }
    }
  }

  /**
   * After a full draw that left the pools tracking the hand, a registry with
   * ten talents per grade besides `include` (eleven for "magic", twelve for
   * "immortals") leaves enough in the grade-3 pool for the bonus to succeed.
   */
  lemma LegendHandSucceeds(version: string, reg: Registry, includeId: Option<int>, hand: seq<Summary>,
                           pools: Pools, u: real)
    requires 0.0 <= u < 1.0 && |hand| == 10
    requires PoolsOk(reg, pools, includeId)
    requires forall g :: g in pools <==> PoolOf(reg, g, includeId) != []
    requires forall g :: g in pools ==> |pools[g]| + |hand| >= |PoolOf(reg, g, includeId)|
    requires Plenty(reg, includeId, if version == Immortals then 12 else if version == Magic then 11 else 10)
    ensures LegendHand(version, hand, pools, u).Ok?
  {
    if version == Immortals || version == Magic {
      assert |PoolOf(reg, 3, includeId)| >= 11;
      assert 3 in pools && |pools[3]| >= (if version == Immortals then 2 else 1);
      LegendPoolSuffices(version, pools[3], u);
    }
  }

  /** Every slot of the bonus-injected hand is a registered talent or one of the variant's fixed extras. */
  lemma LegendHandMembers(version: string, reg: Registry, includeId: Option<int>, hand: seq<Summary>,
                          pools: Pools, u: real)
    requires 0.0 <= u < 1.0
    requires PoolsOk(reg, pools, includeId)
    requires forall i :: 0 <= i < |hand| ==> hand[i] in Summaries(reg)
    ensures var r := LegendHand(version, hand, pools, u);
      r.Ok? ==> forall i :: 0 <= i < |r.value| ==>
        r.value[i] in Summaries(reg) || r.value[i] == ImmortalsTalent || r.value[i] in MagicTalents
  {
    LegendHandFacts(version, hand, pools, u);
    var r := LegendHand(version, hand, pools, u);
    if r.Ok? {
      forall i | 0 <= i < |r.value|
        ensures r.value[i] in Summaries(reg) || r.value[i] == ImmortalsTalent || r.value[i] in MagicTalents
      {
        if r.value[i] != hand[i] && 3 in pools && r.value[i] in pools[3] {
          var k :| 0 <= k < |pools[3]| && pools[3][k] == r.value[i];
        }
      }
    }
  }

  /** `addLegendTalents`. */
  method AddLegendTalents(version: string, hand: seq<Summary>, pools: Pools, u: real)
    returns (r: Result<seq<Summary>>)
    requires 0.0 <= u < 1.0
    ensures r == LegendHand(version, hand, pools, u)
  {
    if version == Immortals {
      r := BuildImmortalsTalents(hand, LegendPool(pools), u);
    } else if version == Magic {
      r := BuildMagicTalents(hand, LegendPool(pools), u);
    } else {
      r := Ok(hand);
    }
  }
}

=== FILE: catalog.dfy ===
/**
 * The talent catalog: raw entries as authored, the normalised definitions the
 * registry holds, and the registry's read-only queries.
 */
module Catalog {
  import opened Outcomes
  import opened Numerals
  import opened Weights

  /** The two `replacement` sections the resolver reads, as lists of "id*weight" strings. */
  datatype RawReplacement = RawReplacement(grade: Option<seq<string>>, talent: Option<seq<string>>)

  /** One catalog entry as authored, with the object key it is stored under. */
  datatype RawTalent = RawTalent(
    key: string,
    grade: int,
    name: string,
    description: string,
    condition: string,
    effect: map<string, int>,
    status: Option<int>,
    exclusive: Option<seq<int>>,
    replacement: Option<RawReplacement>)

  /** Parsed sections: `grade` is keyed by talent grade, `talent` by candidate id. */
  datatype Replacement = Replacement(grade: Option<WeightTable>, talent: Option<WeightTable>)

  /** A normalised talent definition. */
  datatype TalentDef = TalentDef(
    id: nat,
    grade: int,
    name: string,
    description: string,
    condition: string,
    effect: map<string, int>,
    status: Option<int>,
    exclusive: Option<seq<int>>,
    replacement: Option<Replacement>)

  /** The registry, in the catalog object's enumeration order. */
  type Registry = seq<TalentDef>

  // ----- Loading -----

  predicate SectionOk(section: Option<seq<string>>) {
    section.Some? ==> AllKeysOk(section.value)
  }

  /** The entries the model admits: array-index keys, and numeric (or empty) candidate ids. */
  predicate RawOk(raw: RawTalent) {
    && IsIndexKey(raw.key)
    && (raw.replacement.Some? ==>
          SectionOk(raw.replacement.value.grade) && SectionOk(raw.replacement.value.talent))
  }

  /** A catalog object: admitted entries under pairwise distinct keys. */
  predicate WellFormedCatalog(catalog: seq<RawTalent>) {
    && (forall i :: 0 <= i < |catalog| ==> RawOk(catalog[i]))
    && (forall i, j :: 0 <= i < j < |catalog| ==> catalog[i].key != catalog[j].key)
  }

  predicate TableOk(table: Option<WeightTable>) {
    table.Some? ==> Sorted(table.value) && Positive(table.value)
  }

  predicate WellFormedDef(t: TalentDef) {
    t.replacement.Some? ==> TableOk(t.replacement.value.grade) && TableOk(t.replacement.value.talent)
  }

  predicate UniqueIds(reg: Registry) {
    forall i, j :: 0 <= i < j < |reg| ==> reg[i].id != reg[j].id
  }

  /** What loading a well-formed catalog establishes, and every other operation relies on. */
  predicate ValidRegistry(reg: Registry) {
    UniqueIds(reg) && forall i :: 0 <= i < |reg| ==> WellFormedDef(reg[i])
  }

  function ParseSection(section: Option<seq<string>>): (table: Option<WeightTable>)
    requires SectionOk(section)
    ensures table.Some? <==> section.Some?
    ensures TableOk(table)
  {
    if section.None? then None else Some(ParsedList(section.value))
  }

  /**
   * The loader's rewrite of one entry: the id is the number its key denotes,
   * and each replacement section's list becomes a weight table.
   */
  function Normalize(raw: RawTalent): (t: TalentDef)
    requires RawOk(raw)
    ensures WellFormedDef(t)
    ensures t.id == Value(raw.key) && t.grade == raw.grade
    ensures t.replacement.Some? <==> raw.replacement.Some?
  {
    TalentDef(
      Value(raw.key), raw.grade, raw.name, raw.description, raw.condition, raw.effect,
      raw.status, raw.exclusive,
      if raw.replacement.None? then None
      else Some(Replacement(ParseSection(raw.replacement.value.grade),
                            ParseSection(raw.replacement.value.talent))))
  }

  /** Loading a well-formed catalog gives a valid registry: in particular, no two talents share an id. */
  lemma LoadedRegistryValid(catalog: seq<RawTalent>, reg: Registry)
    requires WellFormedCatalog(catalog)
    requires |reg| == |catalog| && forall i :: 0 <= i < |reg| ==> reg[i] == Normalize(catalog[i])
    ensures ValidRegistry(reg)
  {
    forall i, j | 0 <= i < j < |reg| ensures reg[i].id != reg[j].id {
      if reg[i].id == reg[j].id {
        CanonicalInjective(catalog[i].key, catalog[j].key);
      }
    }
  }

  // ----- Lookups -----

  predicate Registered(reg: Registry, id: int) {
    exists i :: 0 <= i < |reg| && reg[i].id == id
  }

  /** Where `id` is stored, if anywhere. */
  function Find(reg: Registry, id: int): (r: Option<nat>)
    ensures r.Some? <==> Registered(reg, id)
    ensures r.Some? ==> r.value < |reg| && reg[r.value].id == id
  {
    if reg == [] then None
    else if reg[0].id == id then Some(0)
    else
      var r := Find(reg[1..], id);
      assert forall i :: 0 < i < |reg| ==> reg[i] == reg[1..][i - 1];
      if r.None? then None else Some(r.value + 1)
  }

  /** `get`: the definition stored under `id`; an unregistered id is an error. */
  function Get(reg: Registry, id: int): (r: Result<TalentDef>)
    ensures r.Err? <==> !Registered(reg, id)
    ensures r.Err? ==> r.error == NotFound(id)
    ensures r.Ok? ==> r.value.id == id && r.value in reg
    ensures UniqueIds(reg) ==> forall i :: 0 <= i < |reg| && reg[i].id == id ==> r == Ok(reg[i])
  {
    var k := Find(reg, id);
    if k.None? then Err(NotFound(id)) else Ok(reg[k.value])
  }

  function IdSet(reg: Registry): set<int> {
    set i | 0 <= i < |reg| :: reg[i].id
  }

  /** `count`: the number of registered talents, which is the number of distinct ids. */
  function Count(reg: Registry): (n: nat)
    ensures UniqueIds(reg) ==> n == |IdSet(reg)|
  {
    assert UniqueIds(reg) ==> |IdSet(reg)| == |reg| by {
      if UniqueIds(reg) { DistinctIdsCount(reg); }
    }
    |reg|
  }

  lemma {:induction false} DistinctIdsCount(reg: Registry)
    requires UniqueIds(reg)
    ensures |IdSet(reg)| == |reg|
  {
    if reg != [] {
      var n := |reg| - 1;
      var init := reg[..n];
      DistinctIdsCount(init);
      assert IdSet(reg) == IdSet(init) + {reg[n].id} by {
        forall x | x in IdSet(reg) ensures x in IdSet(init) + {reg[n].id} {
          var i :| 0 <= i < |reg| && reg[i].id == x;
          if i < n { assert init[i].id == x; }
        }
        forall x | x in IdSet(init) ensures x in IdSet(reg) {
          var i :| 0 <= i < n && init[i].id == x;
          assert reg[i].id == x;
        }
      }
      assert reg[n].id !in IdSet(init);
    }
  }

  /** The public face of a talent: no mechanics. */
  datatype Info = Info(grade: int, name: string, description: string)

  /** `information`: grade, name and description of a registered talent. */
  function Information(reg: Registry, id: int): (r: Result<Info>)
    ensures r.Err? <==> !Registered(reg, id)
    ensures r.Ok? ==>
      (exists i :: 0 <= i < |reg| && reg[i].id == id &&
         r.value == Info(reg[i].grade, reg[i].name, reg[i].description))
  {
    match Get(reg, id)
    case Err(e) => Err(e)
    case Ok(t) => Ok(Info(t.grade, t.name, t.description))
  }

  /** `forEach`: the visitor's results, one visit per registered talent, in registry order. */
  function ForEach<T>(reg: Registry, visit: TalentDef -> T): (r: seq<T>)
    ensures |r| == |reg|
    ensures forall i :: 0 <= i < |reg| ==> r[i] == visit(reg[i])
  {
    if reg == [] then [] else [visit(reg[0])] + ForEach(reg[1..], visit)
  }

  /**
   * `check`: the talent's condition put to the condition evaluator; `holds`
   * stands for the evaluator applied to the caller's property.
   */
  function Check(reg: Registry, id: int, holds: string -> bool): (r: Result<bool>)
    ensures r.Err? <==> !Registered(reg, id)
    ensures r.Err? ==> r.error == NotFound(id)
    ensures r.Ok? ==> exists i :: 0 <= i < |reg| && reg[i].id == id && r.value == holds(reg[i].condition)
  {
    match Get(reg, id)
    case Err(e) => Err(e)
    case Ok(t) => Ok(holds(t.condition))
  }

  /** What `do` hands back when a talent's condition holds. */
  datatype Outcome = Outcome(effect: map<string, int>, grade: int, name: string, description: string)

  /**
   * `do`: the talent's effect when it has no condition or its condition holds;
   * `holds` stands for the condition evaluator applied to the caller's property.
   */
  function Do(reg: Registry, id: int, holds: string -> bool): (r: Result<Option<Outcome>>)
    ensures r.Err? <==> !Registered(reg, id)
    ensures r.Ok? ==> (r.value.None? <==> Get(reg, id).value.condition != "" && !holds(Get(reg, id).value.condition))
    ensures r.Ok? && r.value.Some? ==>
      exists i :: 0 <= i < |reg| && reg[i].id == id &&
                  r.value.value == Outcome(reg[i].effect, reg[i].grade, reg[i].name, reg[i].description)
  {
    match Get(reg, id)
    case Err(e) => Err(e)
    case Ok(t) =>
      if t.condition != "" && !holds(t.condition) then Ok(None)
      else Ok(Some(Outcome(t.effect, t.grade, t.name, t.description)))
  }

  /** `do` takes effect exactly when the talent has no condition or `check` passes it. */
  lemma DoAgreesWithCheck(reg: Registry, id: int, holds: string -> bool)
    requires Registered(reg, id)
    ensures Do(reg, id, holds).value.Some? <==>
      Get(reg, id).value.condition == "" || Check(reg, id, holds) == Ok(true)
  {
  }

  // ----- Exclusivity -----

  /** The first held id, in held order, that the list names. */
  function FirstConflict(held: seq<int>, list: seq<int>): (r: Option<int>)
    ensures r.None? <==> forall i :: 0 <= i < |held| ==> held[i] !in list
    ensures r.Some? ==> exists i :: 0 <= i < |held| && held[i] == r.value && r.value in list &&
                                    forall j :: 0 <= j < i ==> held[j] !in list
  {
    if held == [] then None
    else if held[0] in list then Some(held[0])
    else
      var r := FirstConflict(held[1..], list);
      assert forall i :: 0 < i < |held| ==> held[i] == held[1..][i - 1];
      r
  }

  /**
   * `exclusive`: consults only the candidate's own exclusion list and returns
   * the first held id it names, or None; an unregistered candidate is an error.
   */
  function Exclusive(reg: Registry, held: seq<int>, candidate: int): (r: Result<Option<int>>)
    ensures r.Err? <==> !Registered(reg, candidate)
    ensures r.Ok? ==> var list := Get(reg, candidate).value.exclusive;
      (r.value.None? <==> list.None? || forall i :: 0 <= i < |held| ==> held[i] !in list.value)
    ensures r.Ok? && r.value.Some? ==> var list := Get(reg, candidate).value.exclusive.value;
      exists i :: 0 <= i < |held| && held[i] == r.value.value && held[i] in list &&
                  forall j :: 0 <= j < i ==> held[j] !in list
  {
    match Get(reg, candidate)
    case Err(e) => Err(e)
    case Ok(t) => if t.exclusive.None? then Ok(None) else Ok(FirstConflict(held, t.exclusive.value))
  }

  /** A candidate that conflicts with nothing in a set conflicts with nothing in any part of it. */
  lemma ExclusiveSubset(reg: Registry, big: seq<int>, small: seq<int>, candidate: int)
    requires forall i :: 0 <= i < |small| ==> small[i] in big
    requires Exclusive(reg, big, candidate) == Ok(None)
    ensures Exclusive(reg, small, candidate) == Ok(None)
  {
  }

  // ----- Allocation addition -----

  /** The argument of `allocationAddition`: an id, or a (possibly nested) list of them. */
  datatype IdTree = One(id: int) | Many(items: seq<IdTree>)

  /** `Number(status) || 0`. */
  function StatusValue(t: TalentDef): int {
    if t.status.Some? then t.status.value else 0
  }

  /** `allocationAddition`: the recursive sum of `status`; the first unregistered id is an error. */
  function AllocationAddition(reg: Registry, x: IdTree): (r: Result<int>)
    ensures x.One? ==> (r.Err? <==> !Registered(reg, x.id))
    ensures x.One? && r.Ok? ==> exists i :: 0 <= i < |reg| && reg[i].id == x.id && r.value == StatusValue(reg[i])
    ensures r.Err? ==> r.error.NotFound? && !Registered(reg, r.error.id) && r.error.id in Flatten(x)
    decreases x, 1
  {
    match x
    case One(id) => (match Get(reg, id) case Err(e) => Err(e) case Ok(t) => Ok(StatusValue(t)))
    case Many(items) => SumFrom(reg, x, 0)
  }

  /** The loop of `allocationAddition` over a list, from position `i` on. */
  function SumFrom(reg: Registry, x: IdTree, i: nat): (r: Result<int>)
    requires x.Many? && i <= |x.items|
    ensures r.Err? ==> r.error.NotFound? && !Registered(reg, r.error.id) && r.error.id in FlattenFrom(x, i)
    decreases x, 0, |x.items| - i
  {
    if i == |x.items| then Ok(0)
    else
      match AllocationAddition(reg, x.items[i])
      case Err(e) => Err(e)
      case Ok(a) => (match SumFrom(reg, x, i + 1) case Err(e) => Err(e) case Ok(b) => Ok(a + b))
  }

  /** The ids of a tree, left to right. */
  function Flatten(x: IdTree): seq<int>
    decreases x, 1
  {
    match x
    case One(id) => [id]
    case Many(items) => FlattenFrom(x, 0)
  }

  function FlattenFrom(x: IdTree, i: nat): seq<int>
    requires x.Many? && i <= |x.items|
    decreases x, 0, |x.items| - i
  {
    if i == |x.items| then [] else Flatten(x.items[i]) + FlattenFrom(x, i + 1)
  }

  /** Reference sum over a flat list of ids. */
  function SumStatus(reg: Registry, ids: seq<int>): Result<int> {
    if ids == [] then Ok(0)
    else
      match Get(reg, ids[0])
      case Err(e) => Err(e)
      case Ok(t) => (match SumStatus(reg, ids[1..]) case Err(e) => Err(e) case Ok(b) => Ok(StatusValue(t) + b))
  }

  lemma {:induction false} SumStatusAppend(reg: Registry, a: seq<int>, b: seq<int>)
    ensures SumStatus(reg, a + b) ==
      match SumStatus(reg, a)
      case Err(e) => Err(e)
      case Ok(x) => (match SumStatus(reg, b) case Err(e) => Err(e) case Ok(y) => Ok(x + y))
  {
    if a == [] {
      assert a + b == b;
    } else {
      assert (a + b)[0] == a[0];
      assert (a + b)[1..] == a[1..] + b;
      SumStatusAppend(reg, a[1..], b);
    }
  }

  /**
   * Nesting does not matter: the recursive sum equals the sum over the ids in
   * left-to-right order, failing at the first unregistered one.
   */
  lemma {:induction false} AllocationAdditionFlat(reg: Registry, x: IdTree)
    ensures AllocationAddition(reg, x) == SumStatus(reg, Flatten(x))
    decreases x, 1
  {
    match x
    case One(id) =>
      assert Flatten(x)[1..] == [];
    case Many(items) =>
      SumFromFlat(reg, x, 0);
  }

  lemma {:induction false} SumFromFlat(reg: Registry, x: IdTree, i: nat)
    requires x.Many? && i <= |x.items|
    ensures SumFrom(reg, x, i) == SumStatus(reg, FlattenFrom(x, i))
    decreases x, 0, |x.items| - i
  {
    if i < |x.items| {
      AllocationAdditionFlat(reg, x.items[i]);
      SumFromFlat(reg, x, i + 1);
      SumStatusAppend(reg, Flatten(x.items[i]), FlattenFrom(x, i + 1));
    }
  }
}

=== FILE: draw.dfy ===
/**
 * The draw assembler of `talentRandom`: the registry is split into per-grade
 * pools, and ten slots are filled by sampling a grade, stepping down past
 * exhausted pools, and splicing one summary out of the pool found.
 */
module Draw {
  import opened Outcomes
  import opened Catalog
  import opened Sampler

  /** `{ grade, name, description, id }`, what a drawn slot holds. */
  datatype Summary = Summary(grade: int, name: string, description: string, id: int)

  function Summarize(t: TalentDef): Summary {
    Summary(t.grade, t.name, t.description, t.id)
  }

  /** The summaries of all registered talents, in registry order. */
  function Summaries(reg: Registry): seq<Summary> {
    ForEach(reg, Summarize)
  }

  predicate DistinctIds(xs: seq<Summary>) {
    forall i, j :: 0 <= i < j < |xs| ==> xs[i].id != xs[j].id
  }

  /** The summary of a registered talent is determined by its id. */
  lemma SameIdSameSummary(reg: Registry, a: Summary, b: Summary)
    requires UniqueIds(reg) && a in Summaries(reg) && b in Summaries(reg) && a.id == b.id
    ensures a == b
  {
    var i :| 0 <= i < |reg| && Summaries(reg)[i] == a;
    var j :| 0 <= j < |reg| && Summaries(reg)[j] == b;
    assert i == j;
  }

  /** `id == include`: the talent forced into slot 0. */
  predicate IsInclude(id: int, includeId: Option<int>) {
    includeId.Some? && id == includeId.value
  }

  /** Grade `g`'s pool: the summaries of the talents of grade `g`, other than `include`, in registry order. */
  function PoolOf(reg: Registry, g: int, includeId: Option<int>): (p: seq<Summary>)
    ensures |p| <= |reg|
    ensures forall s :: s in p ==> s.grade == g && !IsInclude(s.id, includeId)
  {
    if reg == [] then []
    else
      var t := reg[|reg| - 1];
      assert forall i :: 0 <= i < |reg| - 1 ==> reg[..|reg| - 1][i] == reg[i];
      PoolOf(reg[..|reg| - 1], g, includeId) +
        (if t.grade == g && !IsInclude(t.id, includeId) then [Summarize(t)] else [])
  }

  /** The summary stored as `include` by the pool-building loop. */
  function IncludeSummary(reg: Registry, includeId: Option<int>): (r: Option<Summary>)
    ensures r.None? <==> includeId.None? || !Registered(reg, includeId.value)
    ensures r.Some? ==> r.value.id == includeId.value
  {
    if reg == [] then None
    else if IsInclude(reg[|reg| - 1].id, includeId) then Some(Summarize(reg[|reg| - 1]))
    else
      assert forall i :: 0 <= i < |reg| - 1 ==> reg[..|reg| - 1][i] == reg[i];
      assert includeId.Some? && Registered(reg, includeId.value) ==> Registered(reg[..|reg| - 1], includeId.value) by {
        if includeId.Some? && Registered(reg, includeId.value) {
          var i :| 0 <= i < |reg| && reg[i].id == includeId.value;
          assert i < |reg| - 1;
        }
      }
      IncludeSummary(reg[..|reg| - 1], includeId)
  }

  lemma {:induction false} IncludeSummaryIsRegistered(reg: Registry, id: int)
    requires UniqueIds(reg) && Registered(reg, id)
    ensures IncludeSummary(reg, Some(id)) == Some(Summarize(Get(reg, id).value))
  {
    var n := |reg| - 1;
    if reg[n].id != id {
      var i :| 0 <= i < |reg| && reg[i].id == id;
      assert reg[..n][i] == reg[i];
      IncludeSummaryIsRegistered(reg[..n], id);
    }
  }

  /** Every talent other than `include` is in the pool of its own grade. */
  lemma {:induction false} PoolOfComplete(reg: Registry, g: int, includeId: Option<int>)
    ensures forall i :: 0 <= i < |reg| && reg[i].grade == g && !IsInclude(reg[i].id, includeId) ==>
      Summarize(reg[i]) in PoolOf(reg, g, includeId)
  {
    if reg != [] {
      var n := |reg| - 1;
      PoolOfComplete(reg[..n], g, includeId);
      assert forall i :: 0 <= i < n ==> reg[..n][i] == reg[i];
    }
  }

  /**
   * The pools partition the registry less `include`: each other talent is in
   * the pool of its own grade, and a pool holds nothing else, so it is in
   * exactly one pool, and `include` is in none.
   */
  lemma PoolOfMembers(reg: Registry, g: int, includeId: Option<int>)
    ensures forall s :: s in PoolOf(reg, g, includeId) ==>
      s.grade == g && !IsInclude(s.id, includeId) && s in Summaries(reg)
    ensures forall i :: 0 <= i < |reg| && reg[i].grade == g && !IsInclude(reg[i].id, includeId) ==>
      Summarize(reg[i]) in PoolOf(reg, g, includeId)
  {
    PoolOfComplete(reg, g, includeId);
    forall s | s in PoolOf(reg, g, includeId) ensures s in Summaries(reg) {
      var i :| 0 <= i < |reg| && Summarize(reg[i]) == s;
      assert Summaries(reg)[i] == s;
    }
  }

  lemma {:induction false} PoolOfDistinct(reg: Registry, g: int, includeId: Option<int>)
    requires UniqueIds(reg)
    ensures DistinctIds(PoolOf(reg, g, includeId))
  {
    if reg != [] {
      var n := |reg| - 1;
      var init := reg[..n];
      assert UniqueIds(init);
      PoolOfDistinct(init, g, includeId);
      PoolOfIds(init, g, includeId);
    }
  }

  lemma {:induction false} PoolOfIds(reg: Registry, g: int, includeId: Option<int>)
    ensures forall s :: s in PoolOf(reg, g, includeId) ==> exists i :: 0 <= i < |reg| && reg[i].id == s.id
  {
    if reg != [] {
      var n := |reg| - 1;
      PoolOfIds(reg[..n], g, includeId);
      assert forall i :: 0 <= i < n ==> reg[..n][i] == reg[i];
    }
  }

  /** The pools the source keeps in `talentList`; a grade without a key is an undefined pool. */
  type Pools = map<int, seq<Summary>>

  /** Registry entry `i` extends the pool of grade `g` when it is of that grade and not `include`. */
  lemma PoolOfStep(reg: Registry, i: nat, g: int, includeId: Option<int>)
    requires i < |reg|
    ensures PoolOf(reg[..i + 1], g, includeId) ==
      PoolOf(reg[..i], g, includeId) +
      (if reg[i].grade == g && !IsInclude(reg[i].id, includeId) then [Summarize(reg[i])] else [])
  {
    assert reg[..i + 1][..i] == reg[..i];
  }

  /** Registry entry `i` becomes the stored `include` summary when it is `include`. */
  lemma IncludeSummaryStep(reg: Registry, i: nat, includeId: Option<int>)
    requires i < |reg|
    ensures IncludeSummary(reg[..i + 1], includeId) ==
      if IsInclude(reg[i].id, includeId) then Some(Summarize(reg[i])) else IncludeSummary(reg[..i], includeId)
  {
    assert reg[..i + 1][..i] == reg[..i];
  }

  /** The pools once the first `i` registry entries are visited. */
  ghost predicate PoolsBuilt(reg: Registry, i: nat, includeId: Option<int>, pools: Pools)
    requires i <= |reg|
  {
    forall g :: (g in pools <==> PoolOf(reg[..i], g, includeId) != []) &&
                (g in pools ==> pools[g] == PoolOf(reg[..i], g, includeId))
  }

  /** Visiting entry `i` as the loop does keeps the pools built. */
  lemma PoolsBuiltStep(reg: Registry, i: nat, includeId: Option<int>, pools: Pools, pools': Pools)
    requires i < |reg| && PoolsBuilt(reg, i, includeId, pools)
    requires IsInclude(reg[i].id, includeId) ==> pools' == pools
    requires !IsInclude(reg[i].id, includeId) ==>
      pools' == pools[reg[i].grade := if reg[i].grade in pools then pools[reg[i].grade] + [Summarize(reg[i])]
                                      else [Summarize(reg[i])]]
    ensures PoolsBuilt(reg, i + 1, includeId, pools')
  {
    forall g
      ensures g in pools' <==> PoolOf(reg[..i + 1], g, includeId) != []
      ensures g in pools' ==> pools'[g] == PoolOf(reg[..i + 1], g, includeId)
    {
      PoolOfStep(reg, i, g, includeId);
      assert g in pools <==> PoolOf(reg[..i], g, includeId) != [];
    }
  }

  /** The pools as the building loop leaves them: one per grade that has a talent other than `include`. */
  function FreshPools(reg: Registry, includeId: Option<int>): (pools: Pools)
    ensures forall g :: g in pools <==> PoolOf(reg, g, includeId) != []
    ensures forall g :: g in pools ==> pools[g] == PoolOf(reg, g, includeId)
  {
    var grades := set t | t in reg :: t.grade;
    assert forall g :: PoolOf(reg, g, includeId) != [] ==> g in grades by {
      forall g | PoolOf(reg, g, includeId) != [] ensures g in grades {
        PoolOfMembers(reg, g, includeId);
        var s := PoolOf(reg, g, includeId)[0];
        assert s in Summaries(reg);
        var j :| 0 <= j < |Summaries(reg)| && Summaries(reg)[j] == s;
        assert reg[j] in reg && reg[j].grade == g;
      }
    }
    map g | g in grades && PoolOf(reg, g, includeId) != [] :: PoolOf(reg, g, includeId)
  }

  /** The pool-building loop of `talentRandom`. */
  method BuildPools(reg: Registry, includeId: Option<int>) returns (pools: Pools, inc: Option<Summary>)
    ensures forall g :: g in pools <==> PoolOf(reg, g, includeId) != []
    ensures forall g :: g in pools ==> pools[g] == PoolOf(reg, g, includeId)
    ensures inc == IncludeSummary(reg, includeId)
    ensures pools == FreshPools(reg, includeId)
  {
    pools, inc := map[], None;
    for i := 0 to |reg|
      invariant PoolsBuilt(reg, i, includeId, pools)
      invariant inc == IncludeSummary(reg[..i], includeId)
    {
      var t := reg[i];
      ghost var pools0 := pools;
      if IsInclude(t.id, includeId) {
        inc := Some(Summarize(t));
      } else if t.grade !in pools {
        pools := pools[t.grade := [Summarize(t)]];
      } else {
        pools := pools[t.grade := pools[t.grade] + [Summarize(t)]];
      }
      PoolsBuiltStep(reg, i, includeId, pools0, pools);
      IncludeSummaryStep(reg, i, includeId);
    }
    assert reg[..|reg|] == reg;
    SamePools(reg, includeId, pools);
  }

  /** Pools with the grades and contents of fresh pools are the fresh pools. */
  lemma SamePools(reg: Registry, includeId: Option<int>, pools: Pools)
    requires forall g :: g in pools <==> PoolOf(reg, g, includeId) != []
    requires forall g :: g in pools ==> pools[g] == PoolOf(reg, g, includeId)
    ensures pools == FreshPools(reg, includeId)
  {
    var expected := FreshPools(reg, includeId);
    forall g ensures g in pools <==> g in expected {
    }
    assert pools.Keys == expected.Keys;
  }

  /** What the grade walk of one slot ends at. */
  datatype Walk = Found(grade: int) | Undefined(grade: int)

  /**
   * `while (talentList[grade].length == 0) grade--`: step down past empty pools;
   * reaching a grade with no pool at all is the source's TypeError.
   */
  function Descend(pools: Pools, g: int): (w: Walk)
    ensures w.grade <= g
    ensures w.Found? ==> w.grade in pools && pools[w.grade] != []
    ensures w.Undefined? ==> w.grade !in pools
    ensures forall h :: w.grade < h <= g ==> h in pools && pools[h] == []
    decreases set h | h in pools && h <= g
  {
    if g in pools && pools[g] == [] then
      var before := set h | h in pools && h <= g;
      var after := set h | h in pools && h <= g - 1;
      assert g in before && g !in after && after <= before;
      Descend(pools, g - 1)
    else if g in pools then Found(g)
    else Undefined(g)
  }

  /** The loop of the walk, from the sampled grade down. */
  method FallbackGrade(pools: Pools, sampled: int) returns (w: Walk)
    ensures w == Descend(pools, sampled)
    ensures w.grade <= sampled
    ensures w.Found? ==> w.grade in pools && pools[w.grade] != []
    ensures w.Undefined? ==> w.grade !in pools
    ensures forall g :: w.grade < g <= sampled ==> g in pools && pools[g] == []
  {
    var g := sampled;
    while g in pools && pools[g] == []
      invariant g <= sampled
      invariant forall h :: g < h <= sampled ==> h in pools && pools[h] == []
      invariant Descend(pools, g) == Descend(pools, sampled)
      decreases set h | h in pools && h <= g
    {
      ghost var before := set h | h in pools && h <= g;
      ghost var after := set h | h in pools && h <= g - 1;
      assert g in before && g !in after && after <= before;
      g := g - 1;
    }
    w := if g in pools then Found(g) else Undefined(g);
  }

  lemma ScaledFloor(u: real, n: nat)
    requires 0.0 <= u < 1.0 && n > 0
    ensures 0 <= (u * n as real).Floor < n
  {
    assert 0.0 <= u * n as real < n as real by {
      assert u * n as real <= u * n as real;
    }
  }

  /** `Math.floor(Math.random() * length) % length`: always a position in the pool. */
  function PickIndex(u: real, n: nat): (i: nat)
    requires 0.0 <= u < 1.0 && n > 0
    ensures i < n && i == (u * n as real).Floor
  {
    ScaledFloor(u, n);
    (u * n as real).Floor % n
  }

  /** Every position of a pool is drawn for some random value. */
  lemma PickIndexReachable(n: nat, i: nat)
    requires i < n
    ensures PickIndex(i as real / n as real, n) == i
  {
    assert (i as real / n as real) * n as real == i as real;
  }

  /** The invariant of the pools while slots are drawn. */
  predicate PoolsOk(reg: Registry, pools: Pools, includeId: Option<int>) {
    forall g :: g in pools ==>
      && DistinctIds(pools[g])
      && forall k :: 0 <= k < |pools[g]| ==>
           pools[g][k].grade == g && !IsInclude(pools[g][k].id, includeId) && pools[g][k] in Summaries(reg)
  }

  /** No pool holds a talent with this id. */
  predicate Absent(pools: Pools, id: int) {
    forall g :: g in pools ==> forall k :: 0 <= k < |pools[g]| ==> pools[g][k].id != id
  }

  lemma FreshPoolsOk(reg: Registry, pools: Pools, includeId: Option<int>)
    requires UniqueIds(reg)
    requires forall g :: g in pools ==> pools[g] == PoolOf(reg, g, includeId)
    ensures PoolsOk(reg, pools, includeId)
    ensures includeId.Some? ==> Absent(pools, includeId.value)
  {
    forall g | g in pools
      ensures DistinctIds(pools[g])
      ensures forall k :: 0 <= k < |pools[g]| ==>
        pools[g][k].grade == g && !IsInclude(pools[g][k].id, includeId) && pools[g][k] in Summaries(reg)
    {
      PoolOfMembers(reg, g, includeId);
      PoolOfDistinct(reg, g, includeId);
    }
  }

  /** Splicing position `k` out of pool `g` keeps the invariant, and leaves no copy of the spliced id. */
  lemma SpliceOk(reg: Registry, pools: Pools, includeId: Option<int>, g: int, k: nat)
    requires UniqueIds(reg) && PoolsOk(reg, pools, includeId)
    requires g in pools && k < |pools[g]|
    ensures var pools' := pools[g := pools[g][..k] + pools[g][k + 1..]];
      && PoolsOk(reg, pools', includeId)
      && Absent(pools', pools[g][k].id)
      && (forall id :: Absent(pools, id) ==> Absent(pools', id))
      && (forall id :: id != pools[g][k].id && Absent(pools', id) ==> Absent(pools, id))
  {
    var pool: seq<Summary> := pools[g];
    var rest: seq<Summary> := pool[..k] + pool[k + 1..];
    var pools': Pools := pools[g := rest];
    SpliceSubseq(pool, k);
    SpliceLeavesNone(reg, pools, includeId, g, k);
    SpliceRemovesOne(pools, g, k);
  }

  /** The spliced pool keeps distinct ids and holds only members of the original. */
  lemma SpliceSubseq(pool: seq<Summary>, k: nat)
    requires k < |pool|
    ensures DistinctIds(pool) ==> DistinctIds(pool[..k] + pool[k + 1..])
    ensures forall t :: t in pool[..k] + pool[k + 1..] ==> t in pool
  {
    var rest := pool[..k] + pool[k + 1..];
    assert forall j :: 0 <= j < |rest| ==> rest[j] == (if j < k then pool[j] else pool[j + 1]);
  }

  /** After the splice no pool holds the spliced id: it was in one pool only, once. */
  lemma SpliceLeavesNone(reg: Registry, pools: Pools, includeId: Option<int>, g: int, k: nat)
    requires UniqueIds(reg) && PoolsOk(reg, pools, includeId)
    requires g in pools && k < |pools[g]|
    ensures Absent(pools[g := pools[g][..k] + pools[g][k + 1..]], pools[g][k].id)
  {
    var pool: seq<Summary> := pools[g];
    var rest: seq<Summary> := pool[..k] + pool[k + 1..];
    var pools': Pools := pools[g := rest];
    assert forall j :: 0 <= j < |rest| ==> rest[j] == (if j < k then pool[j] else pool[j + 1]);
    var s := pool[k];
    forall h: int, j: int | h in pools' && 0 <= j < |pools'[h]| ensures pools'[h][j].id != s.id {
      if h == g {
      } else if pools'[h][j].id == s.id {
        SameIdSameSummary(reg, pools'[h][j], s);
      }
    }
  }

  /** Splicing position `k` out of pool `g` removes no id other than the spliced one. */
  lemma SpliceRemovesOne(pools: Pools, g: int, k: nat)
    requires g in pools && k < |pools[g]|
    ensures var pools' := pools[g := pools[g][..k] + pools[g][k + 1..]];
      forall id :: id != pools[g][k].id && Absent(pools', id) ==> Absent(pools, id)
  {
    var pool: seq<Summary> := pools[g];
    var rest: seq<Summary> := pool[..k] + pool[k + 1..];
    var pools': Pools := pools[g := rest];
    assert forall j :: 0 <= j < |rest| ==> rest[j] == (if j < k then pool[j] else pool[j + 1]);
    forall id | id != pool[k].id && Absent(pools', id) ensures Absent(pools, id) {
      forall h, j | h in pools && 0 <= j < |pools[h]| ensures pools[h][j].id != id {
        if h == g && j < k {
          assert pools[h][j] == pools'[h][j];
        } else if h == g && j > k {
          assert pools[h][j] == pools'[h][j - 1];
        } else if h != g {
          assert pools[h][j] == pools'[h][j];
        }
      }
    }
  }

  /**
   * The walk from `sampled` reaches a grade without a pool before any
   * non-empty pool: reading its length is the source's TypeError.
   */
  ghost predicate Stuck(pools: Pools, sampled: int) {
    exists g :: g <= sampled && g !in pools && forall h :: g < h <= sampled ==> h in pools && pools[h] == []
  }

  /** A walk that ends at a non-empty pool is not stuck. */
  lemma NotStuck(pools: Pools, sampled: int, g: int)
    requires g <= sampled && g in pools && pools[g] != []
    requires forall h :: g < h <= sampled ==> h in pools && pools[h] == []
    ensures !Stuck(pools, sampled)
  {
    forall g' | g' <= sampled && g' !in pools
      ensures !(forall h :: g' < h <= sampled ==> h in pools && pools[h] == [])
    {
      assert g' < g;
      assert !(g in pools && pools[g] == []);
    }
  }

  /** One slot after the first, as a value: see `TakeOne`. */
  function Take(pools: Pools, sampled: int, u: real): Result<(Summary, Pools)>
    requires 0.0 <= u < 1.0
  {
    match Descend(pools, sampled)
    case Undefined(_) => Err(TypeError)
    case Found(g) =>
      var k := PickIndex(u, |pools[g]|);
      Ok((pools[g][k], pools[g := pools[g][..k] + pools[g][k + 1..]]))
  }

  /**
   * One slot after the first: walk down from the sampled grade to the first
   * non-empty pool, then splice the element at the picked position out of it.
   */
  method TakeOne(reg: Registry, pools: Pools, includeId: Option<int>, sampled: int, u: real)
    returns (r: Result<(Summary, Pools)>)
    requires UniqueIds(reg) && PoolsOk(reg, pools, includeId)
    requires 0.0 <= u < 1.0
    ensures r == Take(pools, sampled, u)
    ensures r.Err? <==> Stuck(pools, sampled)
    ensures r.Err? ==> r.error == TypeError
    ensures r.Ok? ==> var (s, pools') := r.value; var g := s.grade;
      && g <= sampled && g in pools && pools[g] != []
      && (forall h :: g < h <= sampled ==> h in pools && pools[h] == [])
      && (var k := PickIndex(u, |pools[g]|);
          s == pools[g][k] && pools' == pools[g := pools[g][..k] + pools[g][k + 1..]])
      && !IsInclude(s.id, includeId) && s in Summaries(reg)
      && PoolsOk(reg, pools', includeId)
      && Absent(pools', s.id)
      && (forall id :: Absent(pools, id) ==> s.id != id && Absent(pools', id))
  {
    var w := FallbackGrade(pools, sampled);
    if w.Undefined? {
      assert w.grade <= sampled && w.grade !in pools;
      return Err(TypeError);
    }
    var g := w.grade;
    NotStuck(pools, sampled, g);
    var pool := pools[g];
    var k := PickIndex(u, |pool|);
    var s := pool[k];
    SpliceOk(reg, pools, includeId, g, k);
    r := Ok((s, pools[g := pool[..k] + pool[k + 1..]]));
  }

  /** The hand's ids are distinct and registered, and neither they nor `include` are left in any pool. */
  ghost predicate HandOut(reg: Registry, includeId: Option<int>, hand: seq<Summary>, pools: Pools) {
    && DistinctIds(hand)
    && (forall j :: 0 <= j < |hand| ==> hand[j] in Summaries(reg) && Absent(pools, hand[j].id))
    && (includeId.Some? ==> Absent(pools, includeId.value))
  }

  /** Appending a talent just taken out of the pools keeps the hand's ids distinct, registered and out of the pools. */
  lemma AppendTaken(reg: Registry, includeId: Option<int>, hand: seq<Summary>, pools: Pools, pools': Pools, s: Summary)
    requires HandOut(reg, includeId, hand, pools)
    requires s in Summaries(reg) && Absent(pools', s.id)
    requires forall id :: Absent(pools, id) ==> s.id != id && Absent(pools', id)
    ensures HandOut(reg, includeId, hand + [s], pools')
  {
    forall j | 0 <= j < |hand| ensures s.id != hand[j].id && Absent(pools', hand[j].id) {
      assert Absent(pools, hand[j].id);
    }
    assert forall j :: 0 <= j < |hand| ==> (hand + [s])[j] == hand[j];
  }

  predicate InUnit(us: seq<real>) {
    forall i :: 0 <= i < |us| ==> 0.0 <= us[i] < 1.0
  }

  /** Every talent of grade `h`'s pool is among those drawn. */
  ghost predicate Exhausted(reg: Registry, includeId: Option<int>, h: int, drawn: seq<Summary>) {
    forall t :: t in PoolOf(reg, h, includeId) ==> t in drawn
  }

  /**
   * A slot of grade `grade` sampled at `sampled` came from the highest pool
   * with a talent left: every grade above it, up to the sampled one, has a
   * pool whose talents were all drawn by earlier slots.
   */
  ghost predicate FromHighest(reg: Registry, includeId: Option<int>, sampled: int, drawn: seq<Summary>, grade: int) {
    forall h :: grade < h <= sampled ==> PoolOf(reg, h, includeId) != [] && Exhausted(reg, includeId, h, drawn)
  }

  /**
   * The pools as the hand leaves them: the same grades as when they were
   * built, each short of at most one talent per slot, and still holding every
   * talent of their grade that no slot has taken.
   */
  ghost predicate Tracks(reg: Registry, includeId: Option<int>, hand: seq<Summary>, pools: Pools) {
    && (forall g :: g in pools <==> PoolOf(reg, g, includeId) != [])
    && (forall g :: g in pools ==> |pools[g]| + |hand| >= |PoolOf(reg, g, includeId)|)
    && (forall g, t :: g in pools && t in PoolOf(reg, g, includeId) && t !in hand ==> t in pools[g])
  }

  /** The grade sampled for slot `j`. */
  function SampledGrade(rates: RateTable, rolls: seq<real>, j: nat): int
    requires j < |rolls| && InUnit(rolls)
  {
    RandomGrade(rates, RandomNumber(rolls[j]))
  }

  /**
   * Slot 0 is `include` when one is named, and every other slot is at most
   * the grade sampled for it and came from the highest pool with a talent left.
   */
  ghost predicate Slots(reg: Registry, includeId: Option<int>, rates: RateTable, rolls: seq<real>, hand: seq<Summary>)
    requires includeId.None? || Registered(reg, includeId.value)
    requires |hand| <= |rolls| && InUnit(rolls)
  {
    && (includeId.Some? && |hand| > 0 ==> hand[0] == Summarize(Get(reg, includeId.value).value))
    && (forall j :: 0 <= j < |hand| && (includeId.None? || j > 0) ==>
          hand[j].grade <= SampledGrade(rates, rolls, j) &&
          FromHighest(reg, includeId, SampledGrade(rates, rolls, j), hand[..j], hand[j].grade))
  }

  /**
   * What holds once the first |hand| slots are drawn: the pools keep their
   * invariant and track the hand, the hand's ids are distinct, registered and
   * gone from every pool, and the slots are as `Slots` says.
   */
  ghost predicate Drawn(reg: Registry, includeId: Option<int>, rates: RateTable, rolls: seq<real>,
                        hand: seq<Summary>, pools: Pools)
    requires includeId.None? || Registered(reg, includeId.value)
    requires |hand| <= |rolls| && InUnit(rolls)
  {
    && PoolsOk(reg, pools, includeId)
    && Tracks(reg, includeId, hand, pools)
    && HandOut(reg, includeId, hand, pools)
    && Slots(reg, includeId, rates, rolls, hand)
  }

  /** With ten talents in every grade, fewer than ten slots cannot use up the sampled grade's pool. */
  lemma PlentyNotStuck(reg: Registry, includeId: Option<int>, rates: RateTable, rolls: seq<real>,
                       hand: seq<Summary>, pools: Pools)
    requires includeId.None? || Registered(reg, includeId.value)
    requires |hand| < 10 && |hand| < |rolls| && InUnit(rolls)
    requires Drawn(reg, includeId, rates, rolls, hand, pools)
    requires Plenty(reg, includeId, 10)
    ensures !Stuck(pools, SampledGrade(rates, rolls, |hand|))
  {
    var sampled := SampledGrade(rates, rolls, |hand|);
    assert sampled in pools && |pools[sampled]| >= 1;
    NotStuck(pools, sampled, sampled);
  }

  /** Freshly built pools and an empty hand. */
  lemma DrawnEmpty(reg: Registry, includeId: Option<int>, rates: RateTable, rolls: seq<real>, pools: Pools)
    requires UniqueIds(reg)
    requires includeId.None? || Registered(reg, includeId.value)
    requires InUnit(rolls)
    requires forall g :: g in pools <==> PoolOf(reg, g, includeId) != []
    requires forall g :: g in pools ==> pools[g] == PoolOf(reg, g, includeId)
    ensures Drawn(reg, includeId, rates, rolls, [], pools)
  {
    FreshPoolsOk(reg, pools, includeId);
  }

  /** A talent other than the spliced one is still in the pool after the splice. */
  lemma SpliceKeeps(pool: seq<Summary>, k: nat, t: Summary)
    requires k < |pool| && t in pool && t != pool[k]
    ensures t in pool[..k] + pool[k + 1..]
  {
    var m :| 0 <= m < |pool| && pool[m] == t;
    if m < k {
      assert (pool[..k] + pool[k + 1..])[m] == t;
    } else {
      assert (pool[..k] + pool[k + 1..])[m - 1] == t;
    }
  }

  /** Taking `s` out of pool `g` at position `k` keeps the pools tracking the hand. */
  lemma TracksStep(reg: Registry, includeId: Option<int>, hand: seq<Summary>, pools: Pools, g: int, k: nat)
    requires Tracks(reg, includeId, hand, pools)
    requires g in pools && k < |pools[g]|
    ensures Tracks(reg, includeId, hand + [pools[g][k]], pools[g := pools[g][..k] + pools[g][k + 1..]])
  {
    var s := pools[g][k];
    var pools' := pools[g := pools[g][..k] + pools[g][k + 1..]];
    forall g2, t | g2 in pools' && t in PoolOf(reg, g2, includeId) && t !in hand + [s]
      ensures t in pools'[g2]
    {
      assert t in pools[g2];
      if g2 == g {
        SpliceKeeps(pools[g], k, t);
      }
    }
  }

  /** The new slot came from the highest pool with a talent left. */
  lemma HighestStep(reg: Registry, includeId: Option<int>, hand: seq<Summary>, pools: Pools, sampled: int, g: int)
    requires Tracks(reg, includeId, hand, pools)
    requires forall h :: g < h <= sampled ==> h in pools && pools[h] == []
    ensures FromHighest(reg, includeId, sampled, hand, g)
  {
    forall h | g < h <= sampled
      ensures PoolOf(reg, h, includeId) != [] && Exhausted(reg, includeId, h, hand)
    {
      assert h in pools && pools[h] == [];
    }
  }

  /** Appending a slot drawn from the highest pool with a talent left keeps `Slots`. */
  lemma SlotsStep(reg: Registry, includeId: Option<int>, rates: RateTable, rolls: seq<real>,
                  hand: seq<Summary>, s: Summary)
    requires includeId.None? || Registered(reg, includeId.value)
    requires |hand| < |rolls| && InUnit(rolls)
    requires includeId.None? || |hand| > 0
    requires Slots(reg, includeId, rates, rolls, hand)
    requires s.grade <= SampledGrade(rates, rolls, |hand|)
    requires FromHighest(reg, includeId, SampledGrade(rates, rolls, |hand|), hand, s.grade)
    ensures Slots(reg, includeId, rates, rolls, hand + [s])
  {
    var hand' := hand + [s];
    forall j | 0 <= j < |hand'| && (includeId.None? || j > 0)
      ensures hand'[j].grade <= SampledGrade(rates, rolls, j)
      ensures FromHighest(reg, includeId, SampledGrade(rates, rolls, j), hand'[..j], hand'[j].grade)
    {
      assert hand'[..j] == if j < |hand| then hand[..j] else hand;
    }
    if includeId.Some? {
      assert hand'[0] == hand[0];
    }
  }

  /** Slot 0 holding the stored `include` summary keeps the draw's invariant. */
  lemma DrawnInclude(reg: Registry, includeId: Option<int>, rates: RateTable, rolls: seq<real>,
                     pools: Pools, inc: Summary)
    requires includeId.Some? && Registered(reg, includeId.value)
    requires 0 < |rolls| && InUnit(rolls)
    requires inc == Summarize(Get(reg, includeId.value).value) && inc in Summaries(reg)
    requires Drawn(reg, includeId, rates, rolls, [], pools)
    ensures Drawn(reg, includeId, rates, rolls, [inc], pools)
  {
    assert inc.id == includeId.value;
  }

  /**
   * A slot taken out of the highest non-empty pool at or below the sampled
   * grade keeps the draw's invariant.
   */
  lemma DrawnTake(reg: Registry, includeId: Option<int>, rates: RateTable, rolls: seq<real>,
                  hand: seq<Summary>, pools: Pools, g: int, k: nat)
    requires includeId.None? || Registered(reg, includeId.value)
    requires |hand| < |rolls| && InUnit(rolls)
    requires includeId.None? || |hand| > 0
    requires Drawn(reg, includeId, rates, rolls, hand, pools)
    requires g in pools && k < |pools[g]|
    requires g <= SampledGrade(rates, rolls, |hand|)
    requires forall h :: g < h <= SampledGrade(rates, rolls, |hand|) ==> h in pools && pools[h] == []
    requires var s := pools[g][k]; var pools' := pools[g := pools[g][..k] + pools[g][k + 1..]];
      && s.grade == g && s in Summaries(reg)
      && PoolsOk(reg, pools', includeId)
      && Absent(pools', s.id)
      && (forall id :: Absent(pools, id) ==> s.id != id && Absent(pools', id))
    ensures Drawn(reg, includeId, rates, rolls, hand + [pools[g][k]],
                  pools[g := pools[g][..k] + pools[g][k + 1..]])
  {
    var s := pools[g][k];
    var pools' := pools[g := pools[g][..k] + pools[g][k + 1..]];
    AppendTaken(reg, includeId, hand, pools, pools', s);
    TracksStep(reg, includeId, hand, pools, g, k);
    HighestStep(reg, includeId, hand, pools, SampledGrade(rates, rolls, |hand|), g);
    SlotsStep(reg, includeId, rates, rolls, hand, s);
  }

  /**
   * Slot `|hand|` as a value: the stored `include` summary in slot 0 when there
   * is one, otherwise a talent taken from the pools the earlier slots left.
   */
  function Slot(inc: Option<Summary>, rates: RateTable, rolls: seq<real>, picks: seq<real>,
                hand: seq<Summary>, pools: Pools): (r: Result<(seq<Summary>, Pools)>)
    requires |hand| < |rolls| == |picks| && InUnit(rolls) && InUnit(picks)
    ensures r.Ok? ==> |r.value.0| == |hand| + 1 && r.value.0[..|hand|] == hand
  {
    if |hand| == 0 && inc.Some? then Ok(([inc.value], pools))
    else
      match Take(pools, SampledGrade(rates, rolls, |hand|), picks[|hand|])
      case Err(e) => Err(e)
      case Ok((s, pools')) => Ok((hand + [s], pools'))
  }

  /** The slots from `|hand|` on, each drawn from the pools the one before it left. */
  function Deal(inc: Option<Summary>, rates: RateTable, rolls: seq<real>, picks: seq<real>,
                hand: seq<Summary>, pools: Pools): (r: Result<(seq<Summary>, Pools)>)
    requires |hand| <= |rolls| == |picks| && InUnit(rolls) && InUnit(picks)
    ensures r.Ok? ==> |r.value.0| == |rolls| && r.value.0[..|hand|] == hand
    decreases |rolls| - |hand|
  {
    if |hand| == |rolls| then Ok((hand, pools))
    else
      match Slot(inc, rates, rolls, picks, hand, pools)
      case Err(e) => Err(e)
      case Ok((hand', pools')) =>
        var r := Deal(inc, rates, rolls, picks, hand', pools');
        assert r.Ok? ==> r.value.0[..|hand|] == r.value.0[..|hand'|][..|hand|];
        r
  }

  /**
   * One slot of the draw: slot 0 is the stored `include` summary when there is
   * one; any other slot samples a grade from `rolls[i]` and takes a talent
   * out of the pools with `picks[i]`. It fails exactly when the walk from the
   * sampled grade is stuck.
   */
  method DrawSlot(reg: Registry, includeId: Option<int>, inc: Option<Summary>, rates: RateTable,
                  rolls: seq<real>, picks: seq<real>, hand: seq<Summary>, pools: Pools)
    returns (r: Result<(seq<Summary>, Pools)>)
    requires UniqueIds(reg)
    requires includeId.None? || Registered(reg, includeId.value)
    requires |hand| < |rolls| == |picks| && InUnit(rolls) && InUnit(picks)
    requires includeId.Some? ==>
      inc == Some(Summarize(Get(reg, includeId.value).value)) && inc.value in Summaries(reg)
    requires includeId.None? ==> inc.None?
    requires PoolsOk(reg, pools, includeId)
    ensures r == Slot(inc, rates, rolls, picks, hand, pools)
    ensures r.Err? <==> (includeId.None? || |hand| > 0) && Stuck(pools, SampledGrade(rates, rolls, |hand|))
    ensures r.Err? ==> r.error == TypeError
  {
    var i := |hand|;
    if i == 0 && inc.Some? {
      return Ok(([inc.value], pools));
    }
    var sampled := RandomGrade(rates, RandomNumber(rolls[i]));
    var taken := TakeOne(reg, pools, includeId, sampled, picks[i]);
    if taken.Err? {
      return Err(TypeError);
    }
    var (s, pools') := taken.value;
    r := Ok((hand + [s], pools'));
  }

  /**
   * A slot keeps the draw invariant: the pools keep their invariant and track
   * the hand, ids stay distinct and out of the pools, and the new slot came
   * from the highest pool at or below its sampled grade that had a talent.
   */
  lemma SlotKeepsDrawn(reg: Registry, includeId: Option<int>, inc: Option<Summary>, rates: RateTable,
                       rolls: seq<real>, picks: seq<real>, hand: seq<Summary>, pools: Pools)
    requires UniqueIds(reg)
    requires includeId.None? || Registered(reg, includeId.value)
    requires |hand| < |rolls| == |picks| && InUnit(rolls) && InUnit(picks)
    requires includeId.Some? ==>
      inc == Some(Summarize(Get(reg, includeId.value).value)) && inc.value in Summaries(reg)
    requires includeId.None? ==> inc.None?
    requires Drawn(reg, includeId, rates, rolls, hand, pools)
    requires Slot(inc, rates, rolls, picks, hand, pools).Ok?
    ensures var (hand', pools') := Slot(inc, rates, rolls, picks, hand, pools).value;
      Drawn(reg, includeId, rates, rolls, hand', pools')
  {
    if |hand| == 0 && inc.Some? {
      DrawnInclude(reg, includeId, rates, rolls, pools, inc.value);
    } else {
      var g := Descend(pools, SampledGrade(rates, rolls, |hand|)).grade;
      var k := PickIndex(picks[|hand|], |pools[g]|);
      SpliceOk(reg, pools, includeId, g, k);
      DrawnTake(reg, includeId, rates, rolls, hand, pools, g, k);
    }
  }

  /** Every grade from 0 to 3 has at least `n` talents other than `include`. */
  ghost predicate Plenty(reg: Registry, includeId: Option<int>, n: nat) {
    forall g :: 0 <= g <= 3 ==> |PoolOf(reg, g, includeId)| >= n
  }

  /**
   * The slots of `talentRandom` before any bonus is injected. Slot 0 holds the
   * `include` talent when one is named; every other slot holds a talent from
   * the highest pool at or below the grade sampled for it that still had one,
   * taken out of its pool, so no two slots share an id and no drawn talent is
   * left in a pool. The walk can only get stuck when some grade has fewer
   * than ten talents. `rolls[i]` and `picks[i]` are the two `Math.random()`
   * values slot `i` uses.
   */
  method DrawHand(reg: Registry, includeId: Option<int>, rates: RateTable, rolls: seq<real>, picks: seq<real>)
    returns (r: Result<(seq<Summary>, Pools)>)
    requires UniqueIds(reg)
    requires includeId.None? || Registered(reg, includeId.value)
    requires |rolls| == 10 && |picks| == 10 && InUnit(rolls) && InUnit(picks)
    ensures r == Deal(IncludeSummary(reg, includeId), rates, rolls, picks, [], FreshPools(reg, includeId))
    ensures r.Err? ==> r.error == TypeError
    ensures Plenty(reg, includeId, 10) ==> r.Ok?
    ensures r.Ok? ==> var (hand, pools) := r.value;
      && |hand| == 10
      && DistinctIds(hand)
      && (forall i :: 0 <= i < 10 ==> hand[i] in Summaries(reg))
      && (includeId.Some? ==> hand[0] == Summarize(Get(reg, includeId.value).value))
      && (forall i :: 0 <= i < 10 && (includeId.None? || i > 0) ==>
            hand[i].grade <= SampledGrade(rates, rolls, i) &&
            FromHighest(reg, includeId, SampledGrade(rates, rolls, i), hand[..i], hand[i].grade))
      && PoolsOk(reg, pools, includeId)
      && (forall g :: g in pools <==> PoolOf(reg, g, includeId) != [])
      && (forall g :: g in pools ==> |pools[g]| + 10 >= |PoolOf(reg, g, includeId)|)
      && (forall i :: 0 <= i < 10 ==> Absent(pools, hand[i].id))
      && (forall g, t :: g in pools && t in PoolOf(reg, g, includeId) && t !in hand ==> t in pools[g])
  {
    var pools, inc := BuildPools(reg, includeId);
    ghost var pools0 := pools;
    DrawnEmpty(reg, includeId, rates, rolls, pools);
    if includeId.Some? {
      IncludeSummaryIsRegistered(reg, includeId.value);
      assert Summarize(Get(reg, includeId.value).value) in Summaries(reg);
    }
    var hand: seq<Summary> := [];
    while |hand| < 10
      invariant |hand| <= 10
      invariant Drawn(reg, includeId, rates, rolls, hand, pools)
      invariant Deal(inc, rates, rolls, picks, hand, pools) == Deal(inc, rates, rolls, picks, [], pools0)
      decreases 10 - |hand|
    {
      if Plenty(reg, includeId, 10) {
        PlentyNotStuck(reg, includeId, rates, rolls, hand, pools);
      }
      var slot := DrawSlot(reg, includeId, inc, rates, rolls, picks, hand, pools);
      if slot.Err? {
        return Err(TypeError);
      }
      SlotKeepsDrawn(reg, includeId, inc, rates, rolls, picks, hand, pools);
      hand, pools := slot.value.0, slot.value.1;
    }
    r := Ok((hand, pools));
  }
}

=== FILE: numerals.dfy ===
/**
 * Decimal numerals and the `split` of a string on a separator character,
 * as the catalog loader uses them on object keys and on "id*weight" entries.
 */
module Numerals {

  predicate IsDigit(c: char) {
    '0' <= c <= '9'
  }

  predicate AllDigits(s: string) {
    forall i :: 0 <= i < |s| ==> IsDigit(s[i])
  }

  /** An integer-like object key: "0", or digits without a leading zero. */
  predicate IsCanonical(s: string) {
    |s| > 0 && AllDigits(s) && (|s| == 1 || s[0] != '0')
  }

  /** 2^32 - 1: integer-like object keys below it are array indices. */
  const IndexLimit: nat := 0xFFFF_FFFF

  /**
   * An array-index key: an integer-like key below `IndexLimit`. An object
   * enumerates such keys in ascending numeric order, ahead of its other keys.
   */
  predicate IsIndexKey(s: string) {
    IsCanonical(s) && Value(s) < IndexLimit
  }

  function DigitValue(c: char): (d: nat)
    requires IsDigit(c)
    ensures d <= 9
  {
    c as int - '0' as int
  }

  /** The number a string of decimal digits denotes ("" denotes 0, as `Number("")` does). */
  function Value(s: string): nat
    requires AllDigits(s)
  {
    if s == [] then 0 else Value(s[..|s| - 1]) * 10 + DigitValue(s[|s| - 1])
  }

  lemma {:induction false} LeadingDigitBound(s: string)
    requires AllDigits(s) && |s| > 0 && s[0] != '0'
    ensures Value(s) >= 1
    ensures |s| >= 2 ==> Value(s) >= 10
  {
    if |s| >= 2 {
      var p := s[..|s| - 1];
      assert p[0] == s[0];
      LeadingDigitBound(p);
    }
  }

  /** Distinct integer-like keys denote distinct numbers. */
  lemma {:induction false} CanonicalInjective(s: string, t: string)
    requires IsCanonical(s) && IsCanonical(t)
    requires Value(s) == Value(t)
    ensures s == t
    decreases |s|
  {
    if |s| == 1 && |t| == 1 {
      assert s[..0] == [] && t[..0] == [];
    } else if |s| == 1 {
      assert s[..0] == [];
      LeadingDigitBound(t);
      assert false;
    } else if |t| == 1 {
      assert t[..0] == [];
      LeadingDigitBound(s);
      assert false;
    } else {
      var p, q := s[..|s| - 1], t[..|t| - 1];
      assert p[0] == s[0] && q[0] == t[0];
      assert Value(p) == Value(q) && DigitValue(s[|s| - 1]) == DigitValue(t[|t| - 1]);
      CanonicalInjective(p, q);
      assert s == p + [s[|s| - 1]] && t == q + [t[|t| - 1]];
    }
  }

  /** The position of the first `sep` in `s`. */
  function FirstIndex(s: string, sep: char): (i: nat)
    requires sep in s
    ensures i < |s| && s[i] == sep && sep !in s[..i]
  {
    if s[0] == sep then 0 else 1 + FirstIndex(s[1..], sep)
  }

  /** JavaScript's `s.split(sep)` for a one-character separator. */
  function Split(s: string, sep: char): (parts: seq<string>)
    ensures |parts| >= 1
    ensures forall k :: 0 <= k < |parts| ==> sep !in parts[k]
    decreases |s|
  {
    if sep !in s then [s]
    else
      var i := FirstIndex(s, sep);
      [s[..i]] + Split(s[i + 1..], sep)
  }

  /** JavaScript's `parts.join(sep)`. */
  function Join(parts: seq<string>, sep: char): string
    requires |parts| >= 1
  {
    if |parts| == 1 then parts[0] else parts[0] + [sep] + Join(parts[1..], sep)
  }

  /** Splitting loses nothing: joining the parts back gives the original string. */
  lemma {:induction false} JoinSplit(s: string, sep: char)
    ensures Join(Split(s, sep), sep) == s
    decreases |s|
  {
    if sep in s {
      var i := FirstIndex(s, sep);
      var rest := Split(s[i + 1..], sep);
      var parts := Split(s, sep);
      assert parts == [s[..i]] + rest;
      assert |parts| > 1 && parts[0] == s[..i] && parts[1..] == rest;
      assert Join(parts, sep) == s[..i] + [sep] + Join(rest, sep);
      JoinSplit(s[i + 1..], sep);
      assert s == s[..i] + [sep] + s[i + 1..];
    }
  }

  /** The first part is the text before the first separator (all of `s` when there is none). */
  lemma HeadIsTextBeforeSeparator(s: string, sep: char)
    ensures var h := Split(s, sep)[0];
      h <= s && sep !in h && (|h| < |s| ==> s[|h|] == sep)
  {
  }
}

=== FILE: outcomes.dfy ===
/** Optional values and the error results of the talent registry. */
module Outcomes {

  datatype Option<+T> = None | Some(value: T)

  /** The ways an operation of the registry can fail. */
  datatype Error =
    | NotFound(id: int)   // `get` of an id that is not registered
    | TypeError           // reading `.length` or `.id` of an undefined pool or talent
    | NoCandidate         // the weighted picker was handed an empty candidate list
    | OutOfFuel           // a replacement chain longer than the model's bound

  datatype Result<+T> = Ok(value: T) | Err(error: Error)
}

=== FILE: replacement.dfy ===
/**
 * The replacement resolver of `replace`: a held talent with a `replacement`
 * section is swapped, step by step, for a weighted pick among the talents its
 * section names that conflict with nothing in the working set, until the chain
 * reaches a talent without such a section.
 */
module Resolver {
  import opened Outcomes
  import opened Weights
  import opened Catalog

  /** `[id, weight]`, one entry of a candidate list. */
  datatype Candidate = Candidate(id: int, weight: nat)

  /**
   * `if (this.exclusive(talents, id))` as written: the test is on the
   * truthiness of the conflicting held id, and a conflict with id 0 reads as
   * no conflict.
   */
  predicate BlocksAsWritten(conflict: Option<int>) {
    conflict.Some? && conflict.value != 0
  }

  /** The intended test: any conflict excludes the candidate. */
  predicate Blocks(conflict: Option<int>) {
    conflict.Some?
  }

  /**
   * A registry where talent 7 excludes talent 0: holding 0, candidate 7 is in
   * conflict, yet the test as written lets it through.
   */
  lemma ZeroConflictSlipsThrough()
    ensures var t0 := TalentDef(0, 1, "", "", "", map[], None, None, None);
      var t7 := TalentDef(7, 1, "", "", "", map[], None, Some([0]), None);
      var reg := [t0, t7];
      && Exclusive(reg, [0], 7) == Ok(Some(0))
      && Blocks(Exclusive(reg, [0], 7).value)
      && !BlocksAsWritten(Exclusive(reg, [0], 7).value)
  {
    var t0 := TalentDef(0, 1, "", "", "", map[], None, None, None);
    var t7 := TalentDef(7, 1, "", "", "", map[], None, Some([0]), None);
    var reg := [t0, t7];
    assert reg[1].id == 7;
    assert Get(reg, 7) == Ok(t7);
  }

  /** One visit of the grade-keyed scan: the talent, if its grade has a weight and it conflicts with nothing in the working set. */
  function GradeEntry(reg: Registry, table: WeightTable, working: seq<int>, t: TalentDef): (r: seq<Candidate>)
    ensures |r| <= 1
    ensures Registered(reg, t.id) ==> forall c :: c in r <==>
      c.id == t.id && Lookup(table, t.grade) == Some(c.weight) && Exclusive(reg, working, t.id) == Ok(None)
  {
    match Lookup(table, t.grade)
    case None => []
    case Some(w) =>
      match Exclusive(reg, working, t.id)
      case Ok(conflict) => if Blocks(conflict) then [] else [Candidate(t.id, w)]
      case Err(_) => []
  }

  function Concat(xss: seq<seq<Candidate>>): (r: seq<Candidate>)
    ensures forall c :: c in r <==> exists i :: 0 <= i < |xss| && c in xss[i]
  {
    if xss == [] then []
    else
      var r := xss[0] + Concat(xss[1..]);
      assert forall i :: 0 < i < |xss| ==> xss[i] == xss[1..][i - 1];
      r
  }

  /** The grade-keyed candidates: the registry scanned with `forEach`, in registry order. */
  function GradeCandidates(reg: Registry, table: WeightTable, working: seq<int>): (r: seq<Candidate>)
    ensures forall c :: c in r <==>
      exists i :: 0 <= i < |reg| && reg[i].id == c.id && Lookup(table, reg[i].grade) == Some(c.weight) &&
                  Exclusive(reg, working, c.id) == Ok(None)
  {
    var visits := ForEach(reg, t => GradeEntry(reg, table, working, t));
    GradeVisits(reg, table, working, visits);
    Concat(visits)
  }

  lemma GradeVisits(reg: Registry, table: WeightTable, working: seq<int>, visits: seq<seq<Candidate>>)
    requires |visits| == |reg| && forall i :: 0 <= i < |reg| ==> visits[i] == GradeEntry(reg, table, working, reg[i])
    ensures forall c :: (exists i :: 0 <= i < |visits| && c in visits[i]) <==>
      exists i :: 0 <= i < |reg| && reg[i].id == c.id && Lookup(table, reg[i].grade) == Some(c.weight) &&
                  Exclusive(reg, working, c.id) == Ok(None)
  {
    forall i | 0 <= i < |reg|
      ensures forall c :: c in visits[i] <==>
        reg[i].id == c.id && Lookup(table, reg[i].grade) == Some(c.weight) && Exclusive(reg, working, c.id) == Ok(None)
    {
      assert Registered(reg, reg[i].id);
    }
  }

  /** The talent-keyed candidates, in ascending id order; the first unregistered id is an error. */
  function TalentCandidates(reg: Registry, table: WeightTable, working: seq<int>): (r: Result<seq<Candidate>>)
    ensures r.Err? <==> exists i :: 0 <= i < |table| && !Registered(reg, table[i].0)
    ensures r.Err? ==> r.error.NotFound?
    ensures r.Ok? ==> forall c :: c in r.value <==>
      (c.id, c.weight) in table && Exclusive(reg, working, c.id) == Ok(None)
  {
    if table == [] then Ok([])
    else
      assert forall i :: 0 < i < |table| ==> table[i] == table[1..][i - 1];
      var (id, w) := table[0];
      match Exclusive(reg, working, id)
      case Err(e) => Err(e)
      case Ok(conflict) =>
        match TalentCandidates(reg, table[1..], working)
        case Err(e) => Err(e)
        case Ok(rest) => Ok(if Blocks(conflict) then rest else [Candidate(id, w)] + rest)
  }

  /**
   * The candidates of one `replacement` section: the grade-keyed ones followed
   * by the talent-keyed ones, each free of conflict with the working set. The
   * only failure is an unregistered id in the talent-keyed part.
   */
  function SectionCandidates(reg: Registry, section: Replacement, working: seq<int>): (r: Result<seq<Candidate>>)
    ensures r.Err? <==>
      section.talent.Some? && exists i :: 0 <= i < |section.talent.value| && !Registered(reg, section.talent.value[i].0)
    ensures r.Err? ==> r.error.NotFound?
    ensures r.Ok? ==> forall c :: c in r.value ==> Registered(reg, c.id) && Exclusive(reg, working, c.id) == Ok(None)
    ensures r.Ok? ==> forall c :: c in r.value <==>
      && Exclusive(reg, working, c.id) == Ok(None)
      && ((section.grade.Some? &&
             exists i :: 0 <= i < |reg| && reg[i].id == c.id && Lookup(section.grade.value, reg[i].grade) == Some(c.weight))
          || (section.talent.Some? && (c.id, c.weight) in section.talent.value))
    ensures r.Ok? && TableOk(section.grade) && TableOk(section.talent) ==> forall c :: c in r.value ==> c.weight >= 1
  {
    var byGrade := if section.grade.Some? then GradeCandidates(reg, section.grade.value, working) else [];
    var byTalent := if section.talent.Some? then TalentCandidates(reg, section.talent.value, working) else Ok([]);
    if byTalent.Err? then Err(byTalent.error)
    else
      if section.grade.Some? then
        GradeWeights(reg, section.grade.value, working);
        Ok(byGrade + byTalent.value)
      else Ok(byGrade + byTalent.value)
  }

  /** A grade-keyed candidate carries a weight listed in the table. */
  lemma GradeWeights(reg: Registry, table: WeightTable, working: seq<int>)
    ensures forall c :: c in GradeCandidates(reg, table, working) ==> exists x :: x in table && x.1 == c.weight
  {
    forall c | c in GradeCandidates(reg, table, working)
      ensures exists x :: x in table && x.1 == c.weight
    {
      var i :| 0 <= i < |reg| && reg[i].id == c.id && Lookup(table, reg[i].grade) == Some(c.weight);
      assert (reg[i].grade, c.weight) in table;
    }
  }

  /**
   * `getReplaceList`: None for a talent without a `replacement` section,
   * otherwise the candidates of its section.
   */
  function GetReplaceList(reg: Registry, t: int, working: seq<int>): (r: Result<Option<seq<Candidate>>>)
    ensures !Registered(reg, t) ==> r == Err(NotFound(t))
    ensures r.Ok? ==> (r.value.None? <==> Get(reg, t).value.replacement.None?)
    ensures r.Ok? && r.value.Some? ==> forall c :: c in r.value.value ==>
      Registered(reg, c.id) && Exclusive(reg, working, c.id) == Ok(None)
    ensures r.Ok? && r.value.Some? ==> var section := Get(reg, t).value.replacement.value;
      forall c :: c in r.value.value <==>
        && Exclusive(reg, working, c.id) == Ok(None)
        && ((section.grade.Some? &&
               exists i :: 0 <= i < |reg| && reg[i].id == c.id && Lookup(section.grade.value, reg[i].grade) == Some(c.weight))
            || (section.talent.Some? && (c.id, c.weight) in section.talent.value))
    ensures r.Ok? && r.value.Some? && ValidRegistry(reg) ==> forall c :: c in r.value.value ==> c.weight >= 1
    ensures r.Err? ==> r.error.NotFound?
    ensures Registered(reg, t) ==>
      (r.Err? <==> var d := Get(reg, t).value;
        && d.replacement.Some? && d.replacement.value.talent.Some?
        && exists i :: 0 <= i < |d.replacement.value.talent.value| && !Registered(reg, d.replacement.value.talent.value[i].0))
  {
    match Get(reg, t)
    case Err(e) => Err(e)
    case Ok(d) =>
      if d.replacement.None? then Ok(None)
      else
        assert ValidRegistry(reg) ==> WellFormedDef(d);
        var list := SectionCandidates(reg, d.replacement.value, working);
        if list.Err? then Err(list.error) else Ok(Some(list.value))
  }

  /** `weightRandom`: the oracle's `k`-th answer, taken modulo the list's length. */
  function Choose(list: seq<Candidate>, pick: nat -> nat, k: nat): (c: Candidate)
    requires list != []
    ensures c in list
  {
    list[pick(k) % |list|]
  }

  /**
   * The inner `replace`: follow picks until a talent without a `replacement`
   * section. `k` counts the oracle answers used so far; `fuel` bounds the
   * chain, which the source leaves unbounded. An empty candidate list is
   * handed to `weightRandom`, whose answer on it is not modelled.
   */
  function Resolve(reg: Registry, t: int, working: seq<int>, pick: nat -> nat, k: nat, fuel: nat)
    : (r: Result<(int, nat)>)
    decreases fuel
    ensures r.Ok? ==> Registered(reg, t)
    ensures r.Ok? ==> Registered(reg, r.value.0) && Get(reg, r.value.0).value.replacement.None?
    ensures r.Ok? ==> r.value.0 == t || Exclusive(reg, working, r.value.0) == Ok(None)
    ensures r.Ok? ==> r.value.1 >= k
    ensures Registered(reg, t) && Get(reg, t).value.replacement.None? ==> r == Ok((t, k))
    ensures r.Err? ==> r.error.NotFound? || r.error == NoCandidate || r.error == OutOfFuel
  {
    match GetReplaceList(reg, t, working)
    case Err(e) => Err(e)
    case Ok(None) => Ok((t, k))
    case Ok(Some(list)) =>
      if list == [] then Err(NoCandidate)
      else if fuel == 0 then Err(OutOfFuel)
      else
        var c := Choose(list, pick, k).id;
        var r := Resolve(reg, c, working + [c], pick, k + 1, fuel - 1);
        assert r.Ok? && r.value.0 != c ==> Exclusive(reg, working, r.value.0) == Ok(None) by {
          if r.Ok? && r.value.0 != c {
            ExclusiveSubset(reg, working + [c], working, r.value.0);
          }
        }
        r
  }

  /**
   * Where the chain of held talent `t` ends: at a registered talent without a
   * `replacement` section, which is `t` itself exactly when `t` has none.
   */
  predicate ChainEnd(reg: Registry, t: int, final: int) {
    && Registered(reg, t)
    && Registered(reg, final)
    && Get(reg, final).value.replacement.None?
    && (final == t <==> Get(reg, t).value.replacement.None?)
  }

  /**
   * The outer loop of `replace` from the `i`-th held talent on: the final
   * talent of each chain, in held order. A final talent that differs from its
   * start joins the working set before the next chain is followed.
   */
  function Finals(reg: Registry, held: seq<int>, i: nat, working: seq<int>, pick: nat -> nat, k: nat, fuel: nat)
    : (r: Result<seq<int>>)
    requires i <= |held|
    ensures r.Ok? ==> |r.value| == |held| - i && forall j :: 0 <= j < |r.value| ==> ChainEnd(reg, held[i + j], r.value[j])
    ensures r.Err? ==> r.error.NotFound? || r.error == NoCandidate || r.error == OutOfFuel
    decreases |held| - i
  {
    if i == |held| then Ok([])
    else
      match Resolve(reg, held[i], working, pick, k, fuel)
      case Err(e) => Err(e)
      case Ok((final, k')) =>
        var working' := if final != held[i] then working + [final] else working;
        match Finals(reg, held, i + 1, working', pick, k', fuel)
        case Err(e) => Err(e)
        case Ok(rest) =>
          ResolveEnds(reg, held[i], working, pick, k, fuel);
          ConsEnds(reg, held, i, final, rest);
          Ok([final] + rest)
  }

  /** A chain end in front of the chain ends of the later held talents. */
  lemma ConsEnds(reg: Registry, held: seq<int>, i: nat, final: int, rest: seq<int>)
    requires i < |held| && ChainEnd(reg, held[i], final)
    requires |rest| == |held| - (i + 1) && forall j :: 0 <= j < |rest| ==> ChainEnd(reg, held[i + 1 + j], rest[j])
    ensures forall j :: 0 <= j < |rest| + 1 ==> ChainEnd(reg, held[i + j], ([final] + rest)[j])
  {
    forall j | 0 < j < |rest| + 1 ensures ChainEnd(reg, held[i + j], ([final] + rest)[j]) {
      assert ([final] + rest)[j] == rest[j - 1] && held[i + j] == held[i + 1 + (j - 1)];
    }
  }

  lemma ResolveEnds(reg: Registry, t: int, working: seq<int>, pick: nat -> nat, k: nat, fuel: nat)
    ensures var r := Resolve(reg, t, working, pick, k, fuel);
      r.Ok? ==> ChainEnd(reg, t, r.value.0)
  {
  }

  /**
   * The result object: `result[held[j]] = finals[j]` for each chain that ended
   * elsewhere, in held order, so a later duplicate overwrites an earlier one:
   * each key maps to the final of its last chain that ended elsewhere.
   */
  function ResultMap(held: seq<int>, finals: seq<int>): (m: map<int, int>)
    requires |held| == |finals|
    ensures forall x :: x in m <==> exists j :: 0 <= j < |held| && held[j] == x && finals[j] != held[j]
    ensures forall x :: x in m ==> exists j :: LastReplaced(held, finals, j) && held[j] == x && m[x] == finals[j]
  {
    if held == [] then map[]
    else
      var n := |held| - 1;
      var m := ResultMap(held[..n], finals[..n]);
      assert forall j :: 0 <= j < n ==> held[..n][j] == held[j] && finals[..n][j] == finals[j];
      var r := if finals[n] != held[n] then m[held[n] := finals[n]] else m;
      assert forall x :: x in r ==> exists j :: LastReplaced(held, finals, j) && held[j] == x && r[x] == finals[j] by {
        forall x | x in r ensures exists j :: LastReplaced(held, finals, j) && held[j] == x && r[x] == finals[j] {
          if finals[n] != held[n] && x == held[n] {
            assert LastReplaced(held, finals, n);
          } else {
            var j :| LastReplaced(held[..n], finals[..n], j) && held[..n][j] == x && m[x] == finals[..n][j];
            assert LastReplaced(held, finals, j);
          }
        }
      }
      r
  }

  /** Chain `j` ended elsewhere, and no later chain of the same held talent did. */
  predicate LastReplaced(held: seq<int>, finals: seq<int>, j: int)
    requires |held| == |finals|
  {
    && 0 <= j < |held| && finals[j] != held[j]
    && forall k :: j < k < |held| && held[k] == held[j] ==> finals[k] == held[k]
  }

  /** What a replacement map promises about the held talents. */
  predicate Replaces(reg: Registry, held: seq<int>, result: map<int, int>) {
    forall key :: key in result ==>
      && key in held
      && result[key] != key
      && Registered(reg, result[key])
      && Get(reg, result[key]).value.replacement.None?
      && Exclusive(reg, held, result[key]) == Ok(None)
  }

  /**
   * `replace`: the working set starts as a copy of the held talents, and the
   * result as `{}`. Every held talent is registered; it is a key of the result
   * exactly when it has a `replacement` section; and it maps to a different
   * talent without one, whose own `exclusive` list names no held talent.
   */
  function ReplaceAll(reg: Registry, held: seq<int>, pick: nat -> nat, fuel: nat): (r: Result<map<int, int>>)
    ensures r.Ok? ==> Replaces(reg, held, r.value)
    ensures r.Ok? ==> forall x :: x in held ==>
      Registered(reg, x) && (x in r.value <==> Get(reg, x).value.replacement.Some?)
    ensures r.Err? ==> r.error.NotFound? || r.error == NoCandidate || r.error == OutOfFuel
  {
    match Finals(reg, held, 0, held, pick, 0, fuel)
    case Err(e) => Err(e)
    case Ok(finals) =>
      ReplaceChains(reg, held, pick, fuel);
      var m := ResultMap(held, finals);
      assert Replaces(reg, held, m) by {
        forall key | key in m
          ensures key in held && m[key] != key && Registered(reg, m[key])
          ensures Get(reg, m[key]).value.replacement.None? && Exclusive(reg, held, m[key]) == Ok(None)
        {
          var j :| 0 <= j < |held| && held[j] == key && finals[j] != held[j] && m[key] == finals[j];
          assert ChainEnd(reg, held[j], finals[j]);
          ExclusiveSubset(reg, held + finals[..j], held, finals[j]);
        }
      }
      assert forall x :: x in held ==> Registered(reg, x) && (x in m <==> Get(reg, x).value.replacement.Some?) by {
        forall x | x in held ensures Registered(reg, x) && (x in m <==> Get(reg, x).value.replacement.Some?) {
          var j :| 0 <= j < |held| && held[j] == x;
          assert ChainEnd(reg, held[j], finals[j]);
          if x in m {
            var j' :| 0 <= j' < |held| && held[j'] == x && finals[j'] != held[j'];
            assert ChainEnd(reg, held[j'], finals[j']);
          }
        }
      }
      Ok(m)
  }

  /**
   * The working set grows: each chain's final talent, when it differs from its
   * start, conflicts neither with a held talent nor with the final talent of
   * any earlier chain.
   */
  lemma ReplaceChains(reg: Registry, held: seq<int>, pick: nat -> nat, fuel: nat)
    ensures var r := Finals(reg, held, 0, held, pick, 0, fuel);
      r.Ok? ==> forall j :: 0 <= j < |held| ==>
        r.value[j] == held[j] || Exclusive(reg, held + r.value[..j], r.value[j]) == Ok(None)
  {
    FinalsFree(reg, held, 0, held, pick, 0, fuel, []);
    var r := Finals(reg, held, 0, held, pick, 0, fuel);
    if r.Ok? {
      assert [] + r.value == r.value;
    }
  }

  /** One step of the outer loop: the chain of `held[i]`, then the rest. */
  lemma FinalsStep(reg: Registry, held: seq<int>, i: nat, working: seq<int>, pick: nat -> nat, k: nat, fuel: nat,
                   final: int, k': nat)
    requires i < |held|
    requires Resolve(reg, held[i], working, pick, k, fuel) == Ok((final, k'))
    ensures var working' := if final != held[i] then working + [final] else working;
      Finals(reg, held, i, working, pick, k, fuel) == Prefixed([final], Finals(reg, held, i + 1, working', pick, k', fuel))
  {
  }

  /** Final talents already known, in front of those still to come. */
  function Prefixed(done: seq<int>, later: Result<seq<int>>): Result<seq<int>> {
    match later
    case Err(e) => Err(e)
    case Ok(rest) => Ok(done + rest)
  }

  lemma PrefixedTwice(done: seq<int>, more: seq<int>, later: Result<seq<int>>)
    ensures Prefixed(done, Prefixed(more, later)) == Prefixed(done + more, later)
  {
    if later.Ok? {
      assert done + (more + later.value) == (done + more) + later.value;
    }
  }

  /** The order property of `FinalsFree` for one more chain in front of the rest. */
  lemma FreeStep(reg: Registry, held: seq<int>, working: seq<int>, done: seq<int>, final: int, rest: seq<int>)
    requires |done| < |held| && |done| + 1 + |rest| == |held|
    requires forall x :: x in held ==> x in working
    requires forall x :: x in done ==> x in working
    requires final == held[|done|] || Exclusive(reg, working, final) == Ok(None)
    requires var finals := (done + [final]) + rest;
      forall j :: |done| + 1 <= j < |held| ==>
        finals[j] == held[j] || Exclusive(reg, held + finals[..j], finals[j]) == Ok(None)
    ensures var finals := done + ([final] + rest);
      forall j :: |done| <= j < |held| ==>
        finals[j] == held[j] || Exclusive(reg, held + finals[..j], finals[j]) == Ok(None)
  {
    var finals := done + ([final] + rest);
    assert (done + [final]) + rest == finals;
    assert finals[..|done|] == done && finals[|done|] == final;
    if final != held[|done|] {
      forall m | 0 <= m < |held + done| ensures (held + done)[m] in working {
        if m < |held| { assert (held + done)[m] == held[m]; }
        else { assert (held + done)[m] == done[m - |held|]; }
      }
      ExclusiveSubset(reg, working, held + done, final);
    }
  }

  lemma {:induction false} FinalsFree(reg: Registry, held: seq<int>, i: nat, working: seq<int>,
                                      pick: nat -> nat, k: nat, fuel: nat, done: seq<int>)
    requires i <= |held| && |done| == i
    requires forall x :: x in held ==> x in working
    requires forall x :: x in done ==> x in working
    ensures var r := Finals(reg, held, i, working, pick, k, fuel);
      r.Ok? ==> var finals := done + r.value;
        forall j :: i <= j < |held| ==>
          finals[j] == held[j] || Exclusive(reg, held + finals[..j], finals[j]) == Ok(None)
    decreases |held| - i
  {
    if i < |held| {
      var s := Resolve(reg, held[i], working, pick, k, fuel);
      if s.Ok? {
        var (final, k') := s.value;
        var working' := if final != held[i] then working + [final] else working;
        FinalsStep(reg, held, i, working, pick, k, fuel, final, k');
        FinalsFree(reg, held, i + 1, working', pick, k', fuel, done + [final]);
        var r := Finals(reg, held, i + 1, working', pick, k', fuel);
        if r.Ok? {
          FreeStep(reg, held, working, done, final, r.value);
        }
      }
    }
  }

  /**
   * The state of the outer loop before the `i`-th held talent: the final
   * talents so far, the result built from them, and the chains still to follow.
   */
  predicate Progress(reg: Registry, held: seq<int>, i: nat, working: seq<int>, pick: nat -> nat, k: nat, fuel: nat,
                     result: map<int, int>, done: seq<int>)
    requires i <= |held|
  {
    && |done| == i
    && result == ResultMap(held[..i], done)
    && Finals(reg, held, 0, held, pick, 0, fuel) == Prefixed(done, Finals(reg, held, i, working, pick, k, fuel))
  }

  lemma ProgressStart(reg: Registry, held: seq<int>, pick: nat -> nat, fuel: nat)
    ensures Progress(reg, held, 0, held, pick, 0, fuel, map[], [])
  {
    assert held[..0] == [];
    var later := Finals(reg, held, 0, held, pick, 0, fuel);
    if later.Ok? {
      assert [] + later.value == later.value;
    }
  }

  /** Recording one more chain: the result object gains its entry when the chain ended elsewhere. */
  lemma ResultMapSnoc(held: seq<int>, finals: seq<int>, t: int, final: int)
    requires |held| == |finals|
    ensures ResultMap(held + [t], finals + [final]) ==
      if final != t then ResultMap(held, finals)[t := final] else ResultMap(held, finals)
  {
    assert (held + [t])[..|held|] == held && (finals + [final])[..|held|] == finals;
  }

  lemma ResultMapStep(held: seq<int>, i: nat, result: map<int, int>, done: seq<int>, final: int)
    requires i < |held| && |done| == i && result == ResultMap(held[..i], done)
    ensures (if final != held[i] then result[held[i] := final] else result) == ResultMap(held[..i + 1], done + [final])
  {
    assert held[..i + 1] == held[..i] + [held[i]];
    ResultMapSnoc(held[..i], done, held[i], final);
  }

  lemma FinalsPrefixStep(reg: Registry, held: seq<int>, i: nat, working: seq<int>, pick: nat -> nat, k: nat,
                         fuel: nat, done: seq<int>, final: int, k': nat)
    requires i < |held|
    requires Finals(reg, held, 0, held, pick, 0, fuel) == Prefixed(done, Finals(reg, held, i, working, pick, k, fuel))
    requires Resolve(reg, held[i], working, pick, k, fuel) == Ok((final, k'))
    ensures Finals(reg, held, 0, held, pick, 0, fuel) ==
      Prefixed(done + [final], Finals(reg, held, i + 1, if final != held[i] then working + [final] else working, pick, k', fuel))
  {
    var working' := if final != held[i] then working + [final] else working;
    FinalsStep(reg, held, i, working, pick, k, fuel, final, k');
    PrefixedTwice(done, [final], Finals(reg, held, i + 1, working', pick, k', fuel));
  }

  lemma ProgressStep(reg: Registry, held: seq<int>, i: nat, working: seq<int>, pick: nat -> nat, k: nat, fuel: nat,
                     result: map<int, int>, done: seq<int>, final: int, k': nat)
    requires i < |held| && Progress(reg, held, i, working, pick, k, fuel, result, done)
    requires Resolve(reg, held[i], working, pick, k, fuel) == Ok((final, k'))
    ensures Progress(reg, held, i + 1, if final != held[i] then working + [final] else working, pick, k', fuel,
                     if final != held[i] then result[held[i] := final] else result, done + [final])
  {
    ResultMapStep(held, i, result, done, final);
    FinalsPrefixStep(reg, held, i, working, pick, k, fuel, done, final, k');
  }

  lemma ProgressFails(reg: Registry, held: seq<int>, i: nat, working: seq<int>, pick: nat -> nat, k: nat, fuel: nat,
                      result: map<int, int>, done: seq<int>)
    requires i < |held| && Progress(reg, held, i, working, pick, k, fuel, result, done)
    requires Resolve(reg, held[i], working, pick, k, fuel).Err?
    ensures ReplaceAll(reg, held, pick, fuel) == Err(Resolve(reg, held[i], working, pick, k, fuel).error)
  {
  }

  lemma ProgressEnd(reg: Registry, held: seq<int>, working: seq<int>, pick: nat -> nat, k: nat, fuel: nat,
                    result: map<int, int>, done: seq<int>)
    requires Progress(reg, held, |held|, working, pick, k, fuel, result, done)
    ensures ReplaceAll(reg, held, pick, fuel) == Ok(result)
  {
    assert held[..|held|] == held && done + [] == done;
  }

  /** Held talents that all lack a `replacement` section each end their chain where they start. */
  lemma {:induction false} FinalsNothing(reg: Registry, held: seq<int>, i: nat, working: seq<int>,
                                         pick: nat -> nat, k: nat, fuel: nat)
    requires i <= |held|
    requires forall j :: 0 <= j < |held| ==> Registered(reg, held[j]) && Get(reg, held[j]).value.replacement.None?
    ensures Finals(reg, held, i, working, pick, k, fuel) == Ok(held[i..])
    decreases |held| - i
  {
    if i < |held| {
      FinalsNothing(reg, held, i + 1, working, pick, k, fuel);
      FinalsStep(reg, held, i, working, pick, k, fuel, held[i], k);
      assert held[i..] == [held[i]] + held[i + 1..];
    }
  }

  /** Held talents that all lack a `replacement` section give `{}`; so does `replace([])`. */
  lemma NothingToReplace(reg: Registry, held: seq<int>, pick: nat -> nat, fuel: nat)
    requires forall j :: 0 <= j < |held| ==> Registered(reg, held[j]) && Get(reg, held[j]).value.replacement.None?
    ensures ReplaceAll(reg, held, pick, fuel) == Ok(map[])
  {
    FinalsNothing(reg, held, 0, held, pick, 0, fuel);
    assert held[0..] == held;
    var m := ResultMap(held, held);
    assert m.Keys == {};
  }
}

=== FILE: sampler.dfy ===
/**
 * The grade sampler of `talentRandom`: per-grade weights on a 0..999 scale,
 * and a cascading threshold that turns one random number into a grade.
 */
module Sampler {

  /** The weight of grades 1, 2 and 3; grade 0 takes whatever is left of 1000. */
  datatype RateTable = RateTable(grade1: real, grade2: real, grade3: real)

  /** The base weights, per thousand: grade 1 gets 100, grade 2 gets 10, grade 3 gets 1. */
  const BaseRates := RateTable(100.0, 10.0, 1.0)

  /** The multiplier of grade `g`: 1, plus each bonus table's excess over 1 for that grade. */
  function Multiplier(times: map<int, real>, achievement: map<int, real>, g: int): (m: real)
    ensures g !in times && g !in achievement ==> m == 1.0
  {
    1.0
    + (if g in times then times[g] - 1.0 else 0.0)
    + (if g in achievement then achievement[g] - 1.0 else 0.0)
  }

  /**
   * The weights after the play-count and achievement bonus tables are applied;
   * a grade that neither table mentions keeps its base weight.
   */
  function Rates(times: map<int, real>, achievement: map<int, real>): (r: RateTable)
    ensures 1 !in times && 1 !in achievement ==> r.grade1 == BaseRates.grade1
    ensures 2 !in times && 2 !in achievement ==> r.grade2 == BaseRates.grade2
    ensures 3 !in times && 3 !in achievement ==> r.grade3 == BaseRates.grade3
  {
    RateTable(
      BaseRates.grade1 * Multiplier(times, achievement, 1),
      BaseRates.grade2 * Multiplier(times, achievement, 2),
      BaseRates.grade3 * Multiplier(times, achievement, 3))
  }

  /**
   * One bonus loop of `talentRandom`: every grade 1 to 3 that the table names
   * gets the table's excess over 1 added to its multiplier.
   */
  method AddExcess(addition: map<int, real>, table: map<int, real>) returns (r: map<int, real>)
    requires forall g :: 1 <= g <= 3 ==> g in addition
    ensures forall g :: 1 <= g <= 3 ==> g in r && r[g] == addition[g] + (if g in table then table[g] - 1.0 else 0.0)
  {
    r := addition;
    var todo := table.Keys;
    while todo != {}
      invariant todo <= table.Keys
      invariant forall g :: 1 <= g <= 3 ==>
        g in r && r[g] == addition[g] + (if g in table && g !in todo then table[g] - 1.0 else 0.0)
      decreases |todo|
    {
      var g :| g in todo;
      if 1 <= g <= 3 {
        r := r[g := r[g] + table[g] - 1.0];
      }
      todo := todo - {g};
    }
  }

  /**
   * The rate set-up of `talentRandom`: multipliers start at 1, both bonus
   * tables add their excess, and each base weight is scaled by its multiplier.
   */
  method AccumulateRates(times: map<int, real>, achievement: map<int, real>) returns (rates: RateTable)
    ensures rates == Rates(times, achievement)
  {
    var addition := map[1 := 1.0, 2 := 1.0, 3 := 1.0];
    addition := AddExcess(addition, times);
    addition := AddExcess(addition, achievement);
    rates := RateTable(BaseRates.grade1 * addition[1], BaseRates.grade2 * addition[2], BaseRates.grade3 * addition[3]);
  }

  /** A table that only ever multiplies by 1 is no bonus at all. */
  predicate NoBonus(table: map<int, real>) {
    forall g :: g in table ==> table[g] == 1.0
  }

  lemma NoBonusGivesBaseRates(times: map<int, real>, achievement: map<int, real>)
    requires NoBonus(times) && NoBonus(achievement)
    ensures Rates(times, achievement) == BaseRates
  {
  }

  /** `Math.floor(Math.random() * 1000)`. */
  function RandomNumber(u: real): (n: int)
    requires 0.0 <= u < 1.0
    ensures 0 <= n < 1000
  {
    (u * 1000.0).Floor
  }

  predicate NonNegative(rates: RateTable) {
    rates.grade1 >= 0.0 && rates.grade2 >= 0.0 && rates.grade3 >= 0.0
  }

  /**
   * `randomGrade`: subtract the grade-3, grade-2 and grade-1 weights in turn and
   * stop at the first negative value. With non-negative weights the grades own
   * consecutive bands of the scale: grade 3 the first, then grade 2, then
   * grade 1, and grade 0 the rest.
   */
  function RandomGrade(rates: RateTable, n: int): (g: int)
    ensures 0 <= g <= 3
    ensures g == 3 <==> (n as real) < rates.grade3
    ensures NonNegative(rates) ==>
      && (g == 2 <==> rates.grade3 <= (n as real) < rates.grade3 + rates.grade2)
      && (g == 1 <==> rates.grade3 + rates.grade2 <= (n as real) < rates.grade3 + rates.grade2 + rates.grade1)
      && (g == 0 <==> rates.grade3 + rates.grade2 + rates.grade1 <= (n as real))
  {
    var left := n as real - rates.grade3;
    if left < 0.0 then 3
    else
      var left' := left - rates.grade2;
      if left' < 0.0 then 2
      else if left' - rates.grade1 < 0.0 then 1
      else 0
  }

  /** How many of the numbers lo, ..., hi - 1 the sampler turns into grade `g`. */
  function Tally(rates: RateTable, g: int, lo: int, hi: int): nat
    decreases hi - lo
  {
    if hi <= lo then 0
    else Tally(rates, g, lo, hi - 1) + (if RandomGrade(rates, hi - 1) == g then 1 else 0)
  }

  lemma {:induction false} TallySplit(rates: RateTable, g: int, lo: int, mid: int, hi: int)
    requires lo <= mid <= hi
    ensures Tally(rates, g, lo, hi) == Tally(rates, g, lo, mid) + Tally(rates, g, mid, hi)
    decreases hi - mid
  {
    if mid < hi {
      TallySplit(rates, g, lo, mid, hi - 1);
    }
  }

  lemma {:induction false} TallyConstant(rates: RateTable, g: int, lo: int, hi: int, all: bool)
    requires lo <= hi
    requires forall n :: lo <= n < hi ==> (RandomGrade(rates, n) == g) == all
    ensures Tally(rates, g, lo, hi) == if all then hi - lo else 0
    decreases hi - lo
  {
    if lo < hi {
      TallyConstant(rates, g, lo, hi - 1, all);
    }
  }

  /** The base weights give grade 3 to 0, grade 2 to 1..10, grade 1 to 11..110 and grade 0 to the rest. */
  lemma BaseBands(n: int)
    ensures RandomGrade(BaseRates, n) ==
      if n < 1 then 3 else if n < 11 then 2 else if n < 111 then 1 else 0
  {
  }

  /** The tally of one grade over 0..top when the grades own the bands [0,a), [a,b), [b,c), [c,top). */
  lemma {:induction false} BandTally(rates: RateTable, g: int, a: int, b: int, c: int, top: int)
    requires 0 <= a <= b <= c <= top
    requires forall n :: RandomGrade(rates, n) == if n < a then 3 else if n < b then 2 else if n < c then 1 else 0
    ensures Tally(rates, g, 0, top) ==
      (if g == 3 then a else 0) + (if g == 2 then b - a else 0) + (if g == 1 then c - b else 0) + (if g == 0 then top - c else 0)
  {
    TallySplit(rates, g, 0, a, top);
    TallySplit(rates, g, a, b, top);
    TallySplit(rates, g, b, c, top);
    TallyConstant(rates, g, 0, a, g == 3);
    TallyConstant(rates, g, a, b, g == 2);
    TallyConstant(rates, g, b, c, g == 1);
    TallyConstant(rates, g, c, top, g == 0);
  }

  /**
   * With no bonus, of the thousand equally likely numbers one gives grade 3,
   * ten give grade 2, a hundred give grade 1 and the other 889 give grade 0:
   * grade 3 is the rarest.
   */
  lemma BaseRateFrequencies()
    ensures Tally(BaseRates, 3, 0, 1000) == 1
    ensures Tally(BaseRates, 2, 0, 1000) == 10
    ensures Tally(BaseRates, 1, 0, 1000) == 100
    ensures Tally(BaseRates, 0, 0, 1000) == 889
  {
    forall n ensures RandomGrade(BaseRates, n) == if n < 1 then 3 else if n < 11 then 2 else if n < 111 then 1 else 0 {
      BaseBands(n);
    }
    BandTally(BaseRates, 3, 1, 11, 111, 1000);
    BandTally(BaseRates, 2, 1, 11, 111, 1000);
    BandTally(BaseRates, 1, 1, 11, 111, 1000);
    BandTally(BaseRates, 0, 1, 11, 111, 1000);
  }
}

=== FILE: talent.dfy ===
/**
 * The `Talent` registry object. It owns the normalised catalog; loading
 * rewrites it, and the draw and the replacement resolver read it. The
 * read-only queries (`count`, `get`, `information`, `exclusive`,
 * `allocationAddition`, `check`, `do`, `forEach`) are functions of the
 * registry value in module Catalog.
 */
module TalentRegistry {
  import opened Outcomes
  import opened Numerals
  import opened Weights
  import opened Catalog
  import opened Sampler
  import opened Draw
  import opened Bonus
  import opened Resolver

  /**
   * What `talentRandom` returns: the ten dealt slots from fresh pools, with
   * the variant's bonus talents injected.
   */
  function RandomHand(reg: Registry, includeId: Option<int>, rates: RateTable, version: string,
                      rolls: seq<real>, picks: seq<real>, legendRoll: real): Result<seq<Summary>>
    requires |rolls| == |picks| && InUnit(rolls) && InUnit(picks) && 0.0 <= legendRoll < 1.0
  {
    match Deal(IncludeSummary(reg, includeId), rates, rolls, picks, [], FreshPools(reg, includeId))
    case Err(e) => Err(e)
    case Ok((hand, pools)) => LegendHand(version, hand, pools, legendRoll)
  }

  class Talent {
    /** The normalised definitions, in the catalog's enumeration order. */
    var talents: Registry

    ghost predicate Valid()
      reads this
    {
      ValidRegistry(talents)
    }

    /** A registry before `initial`: nothing is registered yet. */
    constructor()
      ensures talents == []
    {
      talents := [];
    }

    /**
     * `initial`: every entry is normalised in turn — its id becomes the number
     * its key denotes and each replacement list becomes a weight table — so a
     * well-formed catalog gives a valid registry.
     */
    method Initial(catalog: seq<RawTalent>)
      requires WellFormedCatalog(catalog)
      modifies this
      ensures |talents| == |catalog|
      ensures forall i :: 0 <= i < |catalog| ==> talents[i] == Normalize(catalog[i])
      ensures Valid()
    {
      talents := [];
      for i := 0 to |catalog|
        invariant |talents| == i
        invariant forall j :: 0 <= j < i ==> talents[j] == Normalize(catalog[j])
      {
        var raw := catalog[i];
        assert RawOk(raw);
        var replacement: Option<Replacement> := None;
        if raw.replacement.Some? {
          var grade: Option<WeightTable> := None;
          var talent: Option<WeightTable> := None;
          if raw.replacement.value.grade.Some? {
            var obj := ParseList(raw.replacement.value.grade.value);
            grade := Some(obj);
          }
          if raw.replacement.value.talent.Some? {
            var obj := ParseList(raw.replacement.value.talent.value);
            talent := Some(obj);
          }
          replacement := Some(Replacement(grade, talent));
        }
        talents := talents + [TalentDef(Value(raw.key), raw.grade, raw.name, raw.description, raw.condition,
                                        raw.effect, raw.status, raw.exclusive, replacement)];
      }
      LoadedRegistryValid(catalog, talents);
    }

    /**
     * `talentRandom`: ten slots, no two with the same id. Slot 0 is the
     * `include` talent unless a variant's bonus overwrote it, which only a
     * talent below grade 2 allows. Without a variant every other slot is at
     * most the grade sampled for it; with one, a slot holds a registered
     * talent or one of the variant's fixed extras, and every other slot
     * came from the highest pool at or below its sampled grade that still
     * had a talent. Every failure is the TypeError of an undefined pool, and
     * none happens when each grade has ten talents besides `include` (eleven
     * for "magic", twelve for "immortals", whose bonus needs talents left in
     * the grade-3 pool).
     */
    method TalentRandom(includeId: Option<int>, times: map<int, real>, achievement: map<int, real>,
                        version: string, rolls: seq<real>, picks: seq<real>, legendRoll: real)
      returns (r: Result<seq<Summary>>)
      requires UniqueIds(talents)
      requires includeId.None? || Registered(talents, includeId.value)
      requires |rolls| == 10 && |picks| == 10
      requires forall i :: 0 <= i < 10 ==> 0.0 <= rolls[i] < 1.0 && 0.0 <= picks[i] < 1.0
      requires 0.0 <= legendRoll < 1.0
      ensures r == RandomHand(talents, includeId, Rates(times, achievement), version, rolls, picks, legendRoll)
      ensures r.Err? ==> r.error == TypeError
      ensures Plenty(talents, includeId, if version == Immortals then 12 else if version == Magic then 11 else 10) ==>
        r.Ok?
      ensures r.Ok? ==> |r.value| == 10 && DistinctIds(r.value)
      ensures r.Ok? ==> forall i :: 0 <= i < 10 ==>
        r.value[i] in Summaries(talents) || r.value[i] == ImmortalsTalent || r.value[i] in MagicTalents
      ensures r.Ok? && includeId.Some? &&
              ((version != Immortals && version != Magic) || Get(talents, includeId.value).value.grade >= 2) ==>
        r.value[0] == Summarize(Get(talents, includeId.value).value)
      ensures r.Ok? && version != Immortals && version != Magic ==>
        forall i :: 0 <= i < 10 && (includeId.None? || i > 0) ==>
          r.value[i].grade <= RandomGrade(Rates(times, achievement), RandomNumber(rolls[i])) &&
          FromHighest(talents, includeId, RandomGrade(Rates(times, achievement), RandomNumber(rolls[i])),
                      r.value[..i], r.value[i].grade)
    {
      var rates := AccumulateRates(times, achievement);
      var drawn := DrawHand(talents, includeId, rates, rolls, picks);
      if drawn.Err? {
        return Err(TypeError);
      }
      var (hand, pools) := drawn.value;
      LegendHandFacts(version, hand, pools, legendRoll);
      LegendHandMembers(version, talents, includeId, hand, pools, legendRoll);
      if Plenty(talents, includeId, if version == Immortals then 12 else if version == Magic then 11 else 10) {
        LegendHandSucceeds(version, talents, includeId, hand, pools, legendRoll);
      }
      r := AddLegendTalents(version, hand, pools, legendRoll);
    }

    /**
     * `replace`: each held talent is followed down its replacement chain
     * against a working set that starts as the held talents and gains each
     * final talent that differs from its start. A held talent is a key of the
     * result exactly when it has a `replacement` section, and it maps to a
     * different talent without one, whose own `exclusive` list names no held
     * talent.
     */
    method Replace(held: seq<int>, pick: nat -> nat, fuel: nat) returns (r: Result<map<int, int>>)
      ensures r == ReplaceAll(talents, held, pick, fuel)
      ensures r.Ok? ==> Replaces(talents, held, r.value)
      ensures r.Ok? ==> forall x :: x in held ==> (x in r.value <==> Get(talents, x).value.replacement.Some?)
    {
      var working := held;
      var result: map<int, int> := map[];
      var k := 0;
      ghost var done: seq<int> := [];
      ProgressStart(talents, held, pick, fuel);
      for i := 0 to |held|
        invariant Progress(talents, held, i, working, pick, k, fuel, result, done)
      {
        var resolved := Resolve(talents, held[i], working, pick, k, fuel);
        if resolved.Err? {
          ProgressFails(talents, held, i, working, pick, k, fuel, result, done);
          return Err(resolved.error);
        }
        var (final, k') := resolved.value;
        ProgressStep(talents, held, i, working, pick, k, fuel, result, done, final, k');
        done := done + [final];
        if final != held[i] {
          result := result[held[i] := final];
          working := working + [final];
        }
        k := k';
      }
      ProgressEnd(talents, held, working, pick, k, fuel, result, done);
      r := Ok(result);
    }
  }
}

=== FILE: weights.dfy ===
/**
 * The weighted-candidate sections of a talent's `replacement` rules.
 * The loader turns a list of "id*weight" strings into an object keyed by id;
 * the model admits only array-index keys, which the object enumerates in
 * ascending numeric order, so a section is modelled as an association list
 * sorted by key.
 */
module Weights {
  import opened Outcomes
  import opened Numerals

  /** A candidate id the model admits as a key: an array index. */
  type Key = k: nat | k < IndexLimit

  /** (candidate id, weight) pairs. */
  type WeightTable = seq<(Key, nat)>

  predicate Sorted(t: WeightTable) {
    forall i, j :: 0 <= i < j < |t| ==> t[i].0 < t[j].0
  }

  predicate Positive(t: WeightTable) {
    forall i :: 0 <= i < |t| ==> t[i].1 >= 1
  }

  /** `obj[k]`, undefined as None. */
  function Lookup(t: WeightTable, k: int): (r: Option<nat>)
    ensures r.Some? ==> (k, r.value) in t
    ensures r.None? <==> forall i :: 0 <= i < |t| ==> t[i].0 != k
  {
    if t == [] then None
    else if t[0].0 == k then Some(t[0].1)
    else
      assert forall i :: 0 < i < |t| ==> t[i] == t[1..][i - 1];
      Lookup(t[1..], k)
  }

  lemma {:induction false} LookupFound(t: WeightTable, i: nat)
    requires Sorted(t) && i < |t|
    ensures Lookup(t, t[i].0) == Some(t[i].1)
  {
    if i > 0 {
      LookupFound(t[1..], i - 1);
    }
  }

  /** `obj[k] = w` on an object whose keys are array indices. */
  function Put(t: WeightTable, k: Key, w: nat): (r: WeightTable)
    requires Sorted(t)
    ensures Sorted(r)
    ensures forall i :: 0 <= i < |r| ==> r[i] == (k, w) || r[i] in t
    ensures Positive(t) && w >= 1 ==> Positive(r)
  {
    if t == [] then [(k, w)]
    else if k < t[0].0 then [(k, w)] + t
    else if k == t[0].0 then [(k, w)] + t[1..]
    else
      var rest := Put(t[1..], k, w);
      assert forall i :: 0 <= i < |rest| ==> rest[i].0 > t[0].0;
      [t[0]] + rest
  }

  /** After `obj[k] = w`, key `k` reads `w` and every other key reads as before. */
  lemma {:induction false} PutLookup(t: WeightTable, k: Key, w: nat, j: int)
    requires Sorted(t)
    ensures Lookup(Put(t, k, w), j) == if j == k then Some(w) else Lookup(t, j)
  {
    if t != [] && k > t[0].0 && j != t[0].0 {
      PutLookup(t[1..], k, w, j);
    }
  }

  /** Before the first "*": the candidate id's text. */
  function KeyText(v: string): string {
    Split(v, '*')[0]
  }

  /** A key text the model admits: empty, or an array-index numeral. */
  predicate KeyTextOk(v: string) {
    KeyText(v) == "" || IsIndexKey(KeyText(v))
  }

  /** `value[0] || 0`: an empty id text stands for id 0. */
  function KeyOf(text: string): (k: Key)
    requires text == "" || IsIndexKey(text)
    ensures text == "" ==> k == 0
    ensures text != "" ==> k == Value(text)
  {
    if text == "" then 0 else Value(text)
  }

  /** `Number(value[1]) || 1`: a missing, non-numeric or zero weight becomes 1. */
  function WeightOf(text: Option<string>): (w: nat)
    ensures w >= 1
    ensures text.Some? && AllDigits(text.value) && Value(text.value) > 0 ==> w == Value(text.value)
    ensures text.None? || !AllDigits(text.value) ==> w == 1
    ensures text.Some? && AllDigits(text.value) && Value(text.value) == 0 ==> w == 1
  {
    if text.Some? && AllDigits(text.value) && Value(text.value) > 0 then Value(text.value) else 1
  }

  /**
   * One "id*weight" entry, split at "*": the key is `KeyOf` the first part (0
   * when it is empty), the weight is `WeightOf` the second part (1 when there
   * is none, or it is zero or not a number).
   */
  function ParseEntry(v: string): (e: (Key, nat))
    requires KeyTextOk(v)
    ensures e.1 >= 1
  {
    var parts := Split(v, '*');
    (KeyOf(parts[0]), WeightOf(if |parts| > 1 then Some(parts[1]) else None))
  }

  predicate AllKeysOk(vs: seq<string>) {
    forall i :: 0 <= i < |vs| ==> KeyTextOk(vs[i])
  }

  /** The parsed entries of a list, one per string. */
  function Entries(vs: seq<string>): (es: seq<(Key, nat)>)
    requires AllKeysOk(vs)
    ensures |es| == |vs| && forall i :: 0 <= i < |vs| ==> es[i] == ParseEntry(vs[i])
  {
    if vs == [] then [] else [ParseEntry(vs[0])] + Entries(vs[1..])
  }

  /** Entries stored one after another into an empty object. */
  function PutAll(es: seq<(Key, nat)>): (t: WeightTable)
    ensures Sorted(t)
    ensures (forall i :: 0 <= i < |es| ==> es[i].1 >= 1) ==> Positive(t)
  {
    if es == [] then []
    else
      var e := es[|es| - 1];
      Put(PutAll(es[..|es| - 1]), e.0, e.1)
  }

  /** The object the loader builds from a list, entry by entry; later keys overwrite earlier ones. */
  function ParsedList(vs: seq<string>): (t: WeightTable)
    requires AllKeysOk(vs)
    ensures Sorted(t) && Positive(t)
  {
    PutAll(Entries(vs))
  }

  lemma {:induction false} PutAllMissing(es: seq<(Key, nat)>, k: nat)
    requires forall i :: 0 <= i < |es| ==> es[i].0 != k
    ensures Lookup(PutAll(es), k).None?
  {
    if es != [] {
      var n := |es| - 1;
      PutLookup(PutAll(es[..n]), es[n].0, es[n].1, k);
      PutAllMissing(es[..n], k);
    }
  }

  lemma {:induction false} PutAllPresent(es: seq<(Key, nat)>, k: nat, i: nat)
    requires i < |es| && es[i].0 == k
    ensures Lookup(PutAll(es), k).Some?
  {
    var n := |es| - 1;
    PutLookup(PutAll(es[..n]), es[n].0, es[n].1, k);
    if i < n && es[n].0 != k {
      PutAllPresent(es[..n], k, i);
    }
  }

  /** The stored object holds key `k` exactly when some entry has key `k`. */
  lemma PutAllHasKey(es: seq<(Key, nat)>, k: nat)
    ensures Lookup(PutAll(es), k).None? <==> forall i :: 0 <= i < |es| ==> es[i].0 != k
  {
    if forall i :: 0 <= i < |es| ==> es[i].0 != k {
      PutAllMissing(es, k);
    } else {
      var i :| 0 <= i < |es| && es[i].0 == k;
      PutAllPresent(es, k, i);
    }
  }

  /** ... and reads the weight of the last entry with that key. */
  lemma {:induction false} PutAllLastWins(es: seq<(Key, nat)>, k: nat, i: nat)
    requires i < |es| && es[i].0 == k
    requires forall j :: i < j < |es| ==> es[j].0 != k
    ensures Lookup(PutAll(es), k) == Some(es[i].1)
  {
    var n := |es| - 1;
    var init := es[..n];
    PutLookup(PutAll(init), es[n].0, es[n].1, k);
    if i < n {
      assert init[i] == es[i];
      PutAllLastWins(init, k, i);
    }
  }

  /** Entry `i` is the last one of `vs` whose id is `k`. */
  predicate LastWithKey(vs: seq<string>, i: int, k: nat)
    requires AllKeysOk(vs)
  {
    0 <= i < |vs| && ParseEntry(vs[i]).0 == k &&
    forall j :: i < j < |vs| ==> ParseEntry(vs[j]).0 != k
  }

  /** A parsed section holds id `k` exactly when some entry names `k`. */
  lemma ParsedListHasKey(vs: seq<string>, k: nat)
    requires AllKeysOk(vs)
    ensures Lookup(ParsedList(vs), k).None? <==> forall i :: 0 <= i < |vs| ==> ParseEntry(vs[i]).0 != k
  {
    PutAllHasKey(Entries(vs), k);
  }

  /** ... and with the weight of the last entry that names it. */
  lemma ParsedListLastWins(vs: seq<string>, k: nat, i: nat)
    requires AllKeysOk(vs)
    requires LastWithKey(vs, i, k)
    ensures Lookup(ParsedList(vs), k) == Some(ParseEntry(vs[i]).1)
  {
    PutAllLastWins(Entries(vs), k, i);
  }

  /** The loader's inner loop over one section's list. */
  method ParseList(vs: seq<string>) returns (obj: WeightTable)
    requires AllKeysOk(vs)
    ensures obj == ParsedList(vs)
  {
    ghost var es := Entries(vs);
    obj := [];
    for i := 0 to |vs|
      invariant obj == PutAll(es[..i])
    {
      var e := ParseEntry(vs[i]);
      assert es[..i + 1][..i] == es[..i];
      obj := Put(obj, e.0, e.1);
    }
    assert es[..|vs|] == es;
  }
}
